=== FILE: README.md ===
# undecorated-di resolution core, in Dafny

This project models the dependency-injection container of `undecorated-di` and proves
properties of the model. The library has two generations, and both are modelled.

**The current engine** (`src/classes/`):
- `Keys` builds a dictionary of typed keys and refuses a duplicate name.
- `ContainerBuilder` registers each key once as one of four kinds: a transient class, a
  singleton class, a bound function or a constant.
- `Container.get(key)` resolves a key. It walks the dependency graph as a chain of
  `DependencyGraphNode`s linked to their parents, in this order:
  - it returns a cached singleton;
  - it reports a missing key (`MissingInjectableError` at the root,
    `MissingDependencyError` with the rendered chain below it);
  - it returns constants as they are;
  - it detects cycles.
- A cycle made only of singletons is broken by handing out a `SingletonPlaceholder`
  proxy. The proxy is bound to the instance once that instance exists. Any other cycle
  is a `CircularDependencyError`.
- Every proxy trap fails until the proxy is bound. After that, each trap forwards to the
  instance.

**The legacy engine** (`src/container*.ts`, `src/container-builder.ts` and the two
`mergeDictionaries`):
- It resolves against one ancestor set per `getService` call.
- It caches singletons in slots that the builder pre-creates as `undefined`.

**Module layout.** There is one Dafny module per source file:

| module | models |
|---|---|
| `Keys` | `classes/keys.ts` |
| `ContainerBuilder` | `classes/container-builder.ts` |
| `Resolution`, `Engine` | `classes/container.ts` |
| `Placeholder` | `classes/singleton-placeholder.ts` |
| `MissingDependencyError` | `errors/missing-dependency-error.ts` |
| `ErrorMessages` | `error-messages.ts` |
| `MergeDictionaries` | `util/merge-dictionaries.ts` |
| `CheckedMerge` | `merge-dictionaries.ts` |
| `LegacyResolution`, `LegacyEngine` | `container3.ts` |
| `LegacyBuilder` | `container-builder.ts` |

`Values`, `Templates`, `DependencyGraphNode`, `Errors` and `Wrappers` hold the shared
data types; `PlainObject` holds what the `in` operator sees on a plain object.
`ResolutionProperties`, `ResolutionExamples`, `LegacyProperties` and
`PlaceholderScenarios` hold the lemmas and scenarios about the operations.

**How the engines are modelled.**
- The mutable container is a `class`: `Engine.Container` and `LegacyEngine.Container3`.
  Its fields are the ones the source mutates.
- The legacy slot dictionary is an object of class `LegacyEngine.SlotDictionary`. A
  builder hands that object to every container it builds and to every builder it derives
  by `registerTransientService`, so all of them see the singletons any one of them
  creates.
- Each method is proved equal to a pure specification function on a `State` snapshot
  (`Resolution.Resolve`, `LegacyResolution.Resolve`). The properties are lemmas about
  those functions.
- The `dependencies.map(...)` of the source becomes a `while` loop with a suffix
  invariant.
- The walk up the parent chain in `completesSingletonOnlyDependencyCycle` and in
  `buildDependencyGraph` also becomes a loop.

**Objects.**
- An object created by resolution is an `Instance` or a `BoundFn` value. It carries the
  factory, the resolved arguments and a serial number, so that two creations are never
  equal.
- A proxy handed out by the engine is `Forward(slot)`. The slot holds the placeholder's
  `instance` field.
- The state also records, per slot, the key the placeholder was handed out for
  (`owners`, a ghost field of `Engine.Container`). The source drops that link when it
  deletes the key's list; the model keeps it so that "each placeholder ends up holding
  its own key's singleton" can be stated.
- Factories are opaque. What the model keeps of a constructor is the set of argument
  positions it reads properties of while it runs. Reading one of those through an unbound
  proxy is the `UninitializedPropertyAccess` error.

**Where the code and its description differ, the model follows the code.**
- In `resolveWithDependencyGraph` the cycle scan runs only after the cache check, the
  missing-key check and the `Constant` check (`src/classes/container.ts:42-61`).
- The scan is also skipped for a key that has already been resolved once.
- The legacy test at `src/__test__/container.test.ts:179` expects a different
  circular-dependency text, ending in "which cannot be resolved.". The model uses the text
  `src/container.ts:22` throws.
- The legacy engine keeps a key in the ancestor set after its subtree is finished.
  - So a diamond (`A` needs `B` and `C`, and both need `D`) is reported as a circular
    dependency on `D`. `LegacyProperties.DiamondRejected` shows this.
  - The current engine scans the parent chain instead and resolves the same graph.
    `ResolutionExamples.DiamondResolves` shows this.

## Model

| member | source | states |
|---|---|---|
| Keys.CreateKeys | src/classes/keys.ts:17-19 | starts from an empty key dictionary, which is well formed (every key is stored under its own name) |
| Keys.AddKey | src/classes/keys.ts:21-26 | fails with `DuplicateKeyError(name)` exactly when the name is already a key or is inherited by every plain object from `Object.prototype` (such as `toString`), and otherwise returns the pending `forType` step for that name |
| Keys.PendingKey.ForType | src/classes/keys.ts:27-34 | the new dictionary is the old one plus `name` mapped to `Key(name)`; every other key is unchanged |
| Keys.AddKeyPreservesWellFormed | src/classes/keys.ts:21-36 | `addKey(name).forType()` keeps every key stored under its own name |
| Keys.AddKeyKeepsOwnNames | src/classes/keys.ts:22-33 | a key dictionary built by `addKey` never holds a name inherited from `Object.prototype` |
| Keys.InheritedNameRefused | src/classes/keys.ts:17-24 | `createKeys().addKey("toString")` fails with `DuplicateKeyError`, since `"toString" in {}` holds |
| Keys.AddKeyTwiceFails | src/__test__/classes/keys.test.ts:18-26 | adding the same name a second time always fails with `DuplicateKeyError(name)` |
| Keys.ThreeKeysExample | src/__test__/classes/keys.test.ts:11-16 | chaining `addKey(...).forType()` for three fresh names yields exactly those three keys |
| Templates.IsSingleton | src/classes/container.ts:109-114 | only a registered `InjectedClass` can be a singleton; an unregistered key, a function and a constant never are |
| Templates.Instantiate | src/classes/container.ts:86-87 | a constant yields its value; a bound function yields a new bound function over the arguments; a class yields a new instance over the arguments unless its constructor reads an argument that is a still-unbound placeholder, which is `UninitializedPropertyAccess` |
| ContainerBuilder.CreateBuilder | src/classes/container-builder.ts:18-20 | a builder with no injectables |
| ContainerBuilder.Register | src/classes/container-builder.ts:63-79 | fails with `DuplicateKeyError(keyName)` exactly when the key is registered or is a name inherited from `Object.prototype`; otherwise adds the key with the given injectable and keeps every other registration |
| ContainerBuilder.RegisterKeepsOwnNames | src/classes/container-builder.ts:67-78 | a registry built by `register` never holds a name inherited from `Object.prototype` |
| ContainerBuilder.RegisterClass | src/classes/container-builder.ts:22-30 | registers a transient `InjectedClass` with the injectable's dependencies; the key is not a singleton |
| ContainerBuilder.RegisterSingleton | src/classes/container-builder.ts:32-40 | registers an `InjectedClass` flagged singleton; `isSingleton` holds for the key |
| ContainerBuilder.RegisterFunction | src/classes/container-builder.ts:42-52 | registers a `BoundFunction` with the bindable's dependencies; the key is not a singleton |
| ContainerBuilder.RegisterConstant | src/classes/container-builder.ts:54-57 | registers a `Constant` whose `resolve` returns exactly the value |
| ContainerBuilder.Build | src/classes/container-builder.ts:59-61 | a new container over the registered injectables, with no singleton, placeholder or resolved key yet |
| ContainerBuilder.DuplicateRejectedForEveryKind | src/classes/container-builder.ts:67-69 | all four register operations reject an already-registered key, or an inherited name, with `DuplicateKeyError` |
| ContainerBuilder.RegistrationsCommute | src/classes/container-builder.ts:71-78 | registering two distinct fresh keys gives the same injectables in either order |
| Resolution.ScanFrom | src/classes/container.ts:126-136 | the scan step can fail only with `CircularDependencyError` for the scanned key, and reports a cycle only when every node visited so far is a singleton |
| Resolution.CycleScan | src/classes/container.ts:120-139 | fails only with `CircularDependencyError(node.keyName)`; a root node never closes a cycle |
| Resolution.Resolve | src/classes/container.ts:39-107 | resolution only adds: the resolved keys, the cached singleton keys, the placeholders and the created objects never shrink |
| Resolution.Build | src/classes/container.ts:75-106 | on success the value is an object created by this call, the key is flagged resolved, and a singleton key caches exactly the returned value |
| Resolution.ResolveAll | src/classes/container.ts:75-84 | on success one value per dependency, in order; the state only grows |
| Resolution.IssuePlaceholder | src/classes/container.ts:63-72 | the proxy returned is a new slot with no instance, appended to the key's pending list (created when missing); every other list, the cache, the resolved set and the object count are unchanged |
| Resolution.Commit | src/classes/container.ts:89-104 | the key is flagged resolved; a transient node changes nothing else; a singleton node caches the instance under its key and drops the key's pending list, every other list kept; each placeholder in that list gets the instance and every other placeholder keeps its own |
| Resolution.Get | src/classes/container.ts:28-37 | a cached singleton is returned unchanged; an unregistered key fails with `MissingInjectableError` (never `MissingDependencyError`) and changes nothing; the resolved set and the object count only grow |
| Resolution.BindAll | src/classes/container.ts:96-98 | binding sets the instance of exactly the listed placeholders to the value and leaves every other placeholder as it was |
| ResolutionProperties.ScanFromMiss | src/classes/container.ts:126-138 | the scan reports no cycle exactly when no ancestor carries the key |
| ResolutionProperties.ScanFromHit | src/classes/container.ts:127-135 | at the nearest ancestor with the key, the scan answers "cycle" when every node up to it is a singleton and `CircularDependencyError` otherwise |
| ResolutionProperties.CycleScanReference | src/classes/container.ts:121-138 | `completesSingletonOnlyDependencyCycle` agrees with a direct definition over the node's ancestors: no cycle exactly when no ancestor has the key, and otherwise the verdict is decided by the nearest such ancestor and the singleton flags up to it |
| ResolutionProperties.InitialValid | src/classes/container.ts:22-26 | a new container satisfies the state invariant: only singleton keys are cached, each as a created object and after being flagged resolved; placeholders are pending only for unresolved singleton keys; an unbound placeholder is a pending one |
| ResolutionProperties.IssuePreservesValid | src/classes/container.ts:63-72 | handing out a placeholder for a singleton that closes a cycle keeps the state invariant |
| ResolutionProperties.CommitPreservesValid | src/classes/container.ts:89-104 | caching the instance, binding and forgetting the key's placeholders, and flagging the key keeps the state invariant |
| ResolutionProperties.ResolvePreservesValid | src/classes/container.ts:39-106 | every resolution, successful or not, keeps the state invariant |
| ResolutionProperties.BuildPreservesValid | src/classes/container.ts:75-105 | building a node keeps the state invariant |
| ResolutionProperties.ResolveAllPreservesValid | src/classes/container.ts:76-83 | resolving a dependency list keeps the state invariant |
| ResolutionProperties.ChildAncestorKeys | src/classes/container.ts:77-81 | a child node's ancestors are its parent's ancestors plus the parent |
| ResolutionProperties.ScanHitIsAncestor | src/classes/container.ts:129-134 | a node that closes a singleton-only cycle carries the key of one of its ancestors |
| ResolutionProperties.ResolvePendingOnChain | src/classes/container.ts:59-73 | after a successful resolution, placeholders are pending only for keys pending before or for ancestors of the node |
| ResolutionProperties.BuildPendingOnChain | src/classes/container.ts:89-101 | the same for building a node: a placeholder left pending belongs to an ancestor |
| ResolutionProperties.ResolveAllPendingOnChain | src/classes/container.ts:75-84 | the same for a dependency list, with the parent itself counted as an ancestor |
| ResolutionProperties.GetBindsEveryPlaceholder | src/classes/container.ts:28-37 | a successful `get` on a container with nothing pending leaves nothing pending, and every placeholder ever handed out then has its instance |
| ResolutionProperties.InitialOwned | src/classes/container.ts:22-26 | a new container satisfies the ownership invariant: a pending placeholder is listed under its own key, a bound placeholder holds its own key's cached singleton, and every resolved singleton key is cached |
| ResolutionProperties.IssuePreservesOwned | src/classes/container.ts:63-72 | handing out a placeholder keeps the ownership invariant |
| ResolutionProperties.CommitPreservesOwned | src/classes/container.ts:89-104 | committing a singleton not cached before binds its placeholders to its own instance; the ownership invariant is kept and no placeholder bound before changes |
| ResolutionProperties.ResolveKeepsAncestorUnresolved | src/classes/container.ts:59-61 | a key carried by an ancestor and not yet resolved is still unresolved when the node is done, because the cycle scan stops every path back to it |
| ResolutionProperties.BuildKeepsAncestorUnresolved | src/classes/container.ts:75-104 | the same for building a node whose key differs from that ancestor key |
| ResolutionProperties.ResolveAllKeepsAncestorUnresolved | src/classes/container.ts:75-84 | the same for a dependency list, with the parent itself counted as an ancestor |
| ResolutionProperties.ResolvePreservesOwned | src/classes/container.ts:39-106 | every resolution keeps the ownership invariant and never changes the instance of a placeholder already bound |
| ResolutionProperties.BuildPreservesOwned | src/classes/container.ts:75-105 | the same for building a node, given that a singleton node is built only while its key is unresolved (which `Resolve` guarantees), so each singleton is cached once |
| ResolutionProperties.ResolveAllPreservesOwned | src/classes/container.ts:76-83 | the same for a dependency list |
| ResolutionProperties.GetBindsEachPlaceholderToItsSingleton | src/classes/container.ts:89-101 | after a successful `get` on a container with nothing pending, every placeholder ever handed out holds the cached singleton of the key it was handed out for, whatever the length of the cycles that produced it |
| ResolutionProperties.GetSingletonFillsItsPlaceholders | src/classes/container.ts:28-37 | when `get` of a singleton key succeeds, every bound placeholder handed out for that key holds the very instance `get` returns |
| ResolutionProperties.CachedSingletonShortCircuits | src/classes/container.ts:42-43 | a truthy cached singleton is returned with no change to the container |
| ResolutionProperties.MissingKeyFails | src/classes/container.ts:45-53 | an unregistered key is `MissingInjectableError` at the root and `MissingDependencyError(node)` below it, with the container unchanged |
| ResolutionProperties.ConstantResolvesToValue | src/classes/container.ts:55-57 | a constant resolves to its value with no change to the container and no cycle check |
| ResolutionProperties.CycleClosingSingletonGetsPlaceholder | src/classes/container.ts:59-72 | an unresolved singleton that closes a singleton-only cycle gets a new unbound placeholder, recorded under its key |
| ResolutionProperties.ResolvedKeySkipsScan | src/classes/container.ts:59-61 | a key resolved before is built again without the cycle scan |
| ResolutionProperties.ResolvedKeyNeverCircular | src/classes/container.ts:116-118 | no resolution reports a circular dependency on a key that was already resolved |
| ResolutionProperties.BuildResolvedKeyNeverCircular | src/classes/container.ts:141-143 | the same for building a node |
| ResolutionProperties.ResolveAllResolvedKeyNeverCircular | src/classes/container.ts:82-84 | the same for a dependency list |
| ResolutionProperties.TransientCycleFails | src/classes/container.ts:126-134 | an unresolved node whose nearest same-key ancestor is reached through a transient node (itself included) fails with `CircularDependencyError` on its key, with nothing changed, for a cycle of any length |
| ResolutionProperties.ScanOverSingletons | src/classes/container.ts:124-138 | the scan from a singleton node over a chain of singleton nodes never throws |
| ResolutionProperties.SingletonCyclesNeverFail | src/classes/container.ts:59-73 | when every template reachable from the node through dependencies is a constant or a singleton class that reads no argument while constructed (templates elsewhere in the registry are unconstrained), no resolution fails with `CircularDependencyError` or the uninitialized-access error, whatever the cycles' length |
| ResolutionProperties.BuildSingletonCyclesNeverFail | src/classes/container.ts:86-87 | the same for building a node |
| ResolutionProperties.ResolveAllSingletonCyclesNeverFail | src/classes/container.ts:75-84 | the same for a dependency list whose parent chain is all singletons and whose keys are in that reachable set |
| ResolutionProperties.ResolveAllInOrder | src/classes/container.ts:75-76 | dependencies `a + b` resolve as `a` first and then `b` from the state `a` left, stopping at the first error |
| ResolutionProperties.SingletonGetIsStable | src/__test__/classes/container.test.ts:55-85 | once `get` of a singleton succeeds, every later `get` returns the same object and changes nothing |
| ResolutionProperties.TransientGetsAreDistinct | src/__test__/classes/container.test.ts:39-53 | two successive `get`s of a transient class or function return two distinct objects |
| ResolutionProperties.ResolveFuelMonotone | src/classes/container.ts:40-106 | the depth bound of the model is not observable: a result that is not `OutOfFuel` stays the same with more fuel |
| ResolutionProperties.BuildFuelMonotone | src/classes/container.ts:86-106 | the same for building a node |
| ResolutionProperties.ResolveAllFuelMonotone | src/classes/container.ts:78-83 | the same for a dependency list |
| ResolutionExamples.MutualSingletonsResolve | src/__test__/classes/container.test.ts:191-326 | two singletons that need each other resolve; the inner one holds a placeholder that is bound to the outer instance, and nothing is left pending |
| ResolutionExamples.MutualTransientsFail | src/__test__/classes/container.test.ts:361-385 | a cycle through transient classes is `CircularDependencyError` on the requested key |
| ResolutionExamples.ReadingSingletonsFail | src/__test__/classes/container.test.ts:387-427 | a singleton constructor that reads a property of an unbound placeholder fails with the uninitialized-access error |
| ResolutionExamples.UnregisteredDependencyFails | src/__test__/classes/container.test.ts:328-359 | a missing dependency is `MissingDependencyError` on the node whose chain is `ApplyTaxes-->TaxRate` |
| ResolutionExamples.DiamondResolves | src/classes/container.ts:75-87 | a diamond resolves, with a separate transient `D` built on each path |
| Engine.Container.constructor | src/classes/container.ts:21-26 | a new container is in the initial state, which satisfies the state invariant and the ownership invariant |
| Engine.Container.Get | src/classes/container.ts:28-37 | the result and new fields are those of `Resolve` from a root node flagged by `isSingleton`, and the state invariant and the ownership invariant are kept |
| Engine.Container.WasPreviouslyResolved | src/classes/container.ts:116-118 | under the state invariant, a key not resolved before has no cached singleton, and a key resolved before has no pending placeholder |
| Engine.Container.FlagResolved | src/classes/container.ts:141-143 | adds the key to the resolved set and changes nothing else |
| Engine.Container.CompletesSingletonOnlyDependencyCycle | src/classes/container.ts:120-139 | the loop up the parent chain returns what `CycleScan` gives |
| Engine.Container.IssueSingletonPlaceholder | src/classes/container.ts:63-72 | appends a new unbound placeholder to the key's list, creating the list if needed, and returns its proxy |
| Engine.Container.BindPlaceholders | src/classes/container.ts:91-101 | sets the instance of every placeholder of the key and deletes the key's list; nothing else changes |
| Engine.Container.ResolveWithDependencyGraph | src/classes/container.ts:39-107 | the result and new fields are exactly those `Resolve` specifies |
| Engine.Container.Construct | src/classes/container.ts:75-106 | resolving the dependencies, creating the instance and committing it give exactly what `Build` specifies |
| Engine.Container.ResolveDependencies | src/classes/container.ts:75-84 | the loop over the dependencies, each resolved as a child node, gives exactly what `ResolveAll` specifies, stopping at the first error |
| MissingDependencyError.BuildDependencyGraph | src/errors/missing-dependency-error.ts:16-25 | the loop up the parent chain returns the key names joined by `-->`, root first |
| MissingDependencyError.GetMessage | src/errors/missing-dependency-error.ts:10-14 | the message names the missing key right after `Service with key ` and ends with the rendered chain and a period |
| MissingDependencyError.PathShape | src/errors/missing-dependency-error.ts:17-23 | the collected names run from the root's key to the node's key, one per node of the chain, position `i` being the node `depth - i` links up |
| MissingDependencyError.PathOfChild | src/errors/missing-dependency-error.ts:18-22 | a child's name list is its parent's list followed by the child's key |
| MissingDependencyError.DependencyGraphOfChild | src/errors/missing-dependency-error.ts:19-24 | a root renders as its key; a child renders as its parent's chain, `-->`, and its key |
| MissingDependencyError.ApplyTaxesExample | src/errors/missing-dependency-error.ts:10-14 | the missing `TaxRate` under `ApplyTaxes` gives the message `Service with key TaxRate not found. Dependency graph is ApplyTaxes-->TaxRate.` |
| ErrorMessages.CircularDependencyError | src/error-messages.ts:15 | the message opens with `Service with key `, then the key in single quotes, then the fixed explanation |
| ErrorMessages.MissingDependencyErrorMessage | src/error-messages.ts:16 | the message names the key right after `Service with key ` and ends with a period |
| ErrorMessages.MissingDependencyErrorWithDependencyGraph | src/error-messages.ts:17-19 | the plain missing-dependency message with ` Dependency graph is <chain>` inserted before its final period |
| ErrorMessages.WithGraphIsCurrentMessage | src/error-messages.ts:17-19 | the legacy message with a graph equals the message of the current `MissingDependencyError` |
| Placeholder.SingletonPlaceholder.constructor | src/classes/singleton-placeholder.ts:7-9 | a new placeholder has no instance and an extensible proxy target |
| Placeholder.SingletonPlaceholder.Get | src/classes/singleton-placeholder.ts:10-15 | fails while unbound; otherwise reads the instance's own property, `undefined` when absent |
| Placeholder.SingletonPlaceholder.Set | src/classes/singleton-placeholder.ts:16-21 | fails while unbound; otherwise writes the property when it exists or the instance is extensible and reports whether it did |
| Placeholder.SingletonPlaceholder.GetPrototypeOf | src/classes/singleton-placeholder.ts:22-27 | fails while unbound; otherwise the instance's prototype |
| Placeholder.SingletonPlaceholder.SetPrototypeOf | src/classes/singleton-placeholder.ts:28-33 | fails while unbound; otherwise changes the prototype when it is unchanged or the instance is extensible, and reports whether it did |
| Placeholder.SingletonPlaceholder.DefineProperty | src/classes/singleton-placeholder.ts:34-39 | fails while unbound; otherwise defines the property when it exists or the instance is extensible |
| Placeholder.SingletonPlaceholder.DeleteProperty | src/classes/singleton-placeholder.ts:40-45 | fails while unbound; otherwise removes the property and nothing else |
| Placeholder.SingletonPlaceholder.GetOwnPropertyDescriptor | src/classes/singleton-placeholder.ts:46-51 | fails while unbound; otherwise the property's value when it is own, none when absent |
| Placeholder.SingletonPlaceholder.Has | src/classes/singleton-placeholder.ts:52-57 | fails while unbound; otherwise whether the instance has the property |
| Placeholder.SingletonPlaceholder.OwnKeys | src/classes/singleton-placeholder.ts:58-63 | fails while unbound; otherwise exactly the instance's own keys |
| Placeholder.SingletonPlaceholder.IsExtensible | src/classes/singleton-placeholder.ts:64-72 | fails while unbound; otherwise the proxy target follows the instance into non-extensibility and the answer is the instance's extensibility when the two agree |
| Placeholder.SingletonPlaceholder.PreventExtensions | src/classes/singleton-placeholder.ts:73-79 | fails while unbound; otherwise makes both the instance and the proxy target non-extensible, keeping them consistent |
| PlaceholderScenarios.UnsetProxyRejectsEveryTrap | src/__test__/singleton-placeholder.test.ts:10-13 | on an unbound placeholder all eleven traps fail with the uninitialized-access error and change nothing |
| PlaceholderScenarios.SetThenGet | src/singleton-placeholder.ts:17-22 | a property written through the proxy is read back through it |
| PlaceholderScenarios.DefineThenRead | src/singleton-placeholder.ts:35-40 | a property defined through the proxy appears on the instance with that value |
| PlaceholderScenarios.DeleteThenQuery | src/singleton-placeholder.ts:41-46 | after a delete through the proxy, `has` is false and `get` is `undefined` |
| PlaceholderScenarios.QueriesMirrorInstance | src/singleton-placeholder.ts:47-64 | `has`, `ownKeys` and `getOwnPropertyDescriptor` through the proxy agree with the instance |
| PlaceholderScenarios.SetThenGetPrototype | src/singleton-placeholder.ts:23-34 | a prototype set through the proxy is read back through it |
| PlaceholderScenarios.PreventThenQueryExtensible | src/singleton-placeholder.ts:65-80 | after `preventExtensions` through the proxy, `isExtensible` is false |
| PlaceholderScenarios.ExtensibleMirrorsInstance | src/__test__/singleton-placeholder.test.ts:103-108 | `isExtensible` through the proxy answers the instance's extensibility |
| MergeDictionaries.Merge | src/util/merge-dictionaries.ts:1-3 | the merged keys are the union; a key of the added dictionary takes its value; every other key keeps the current value |
| MergeDictionaries.MergeWithEmpty | src/util/merge-dictionaries.ts:2 | merging with an empty dictionary on either side changes nothing |
| MergeDictionaries.MergeAssociative | src/container-builder.ts:37-40 | merging in two steps gives the same dictionary however the steps are grouped |
| MergeDictionaries.MergeOverwrites | src/container-builder.ts:24-27 | merging a one-key dictionary sets that key to the new value and adds only that key |
| CheckedMerge.TypeOf | src/merge-dictionaries.ts:5 | `typeof` is `"object"` exactly for objects and `null` |
| CheckedMerge.Spread | src/merge-dictionaries.ts:12 | spreading `null` contributes no property; spreading an object contributes exactly its own entries |
| CheckedMerge.TypeErrorMessage | src/merge-dictionaries.ts:6-11 | the fixed opening, then the `typeof` of the current and of the added argument, in that order |
| CheckedMerge.Merge | src/merge-dictionaries.ts:1-13 | fails with the type-error message exactly when an argument is not an object, and otherwise is the spread merge |
| CheckedMerge.NumberAndStringRefused | src/__test__/merge-dictionaries.test.ts:21-28 | a number and a string are refused with the message naming both types |
| CheckedMerge.NullMergesAsEmpty | src/merge-dictionaries.ts:5-12 | `null` passes the guard and spreads as an empty object |
| LegacyResolution.Resolve | src/container3.ts:29-49 | the ancestor set only grows, the singleton slots keep their keys, and the object count only grows |
| LegacyResolution.ResolveAll | src/container3.ts:39-41 | on success one value per dependency; the ancestor set is shared across the list |
| LegacyResolution.GetService | src/container3.ts:25-27 | starts from an empty ancestor set: a truthy slot is returned unchanged, an unregistered key without one fails with the plain missing-dependency message, and the set of slots never changes |
| LegacyEngine.AncestorSet.Add | src/container3.ts:38 | adds the key to the shared set |
| LegacyEngine.Container3.constructor | src/container3.ts:12-23 | stores the templates and the slot dictionary object it is given, by reference, not a copy |
| LegacyEngine.Container3.Services | src/container3.ts:19-21 | reading a property of `services` is `getService` of that key, starting from an empty ancestor set |
| LegacyEngine.Container3.GetServiceFresh | src/container.ts:14-16 | `getService` resolves the key with a new, empty ancestor set |
| LegacyEngine.Container3.GetServiceWithAncestralDependencies | src/container3.ts:29-49 | the result, the slots, the object count and the ancestor set afterwards are those `LegacyResolution.Resolve` specifies |
| LegacyEngine.Container3.ResolveDependencies | src/container3.ts:39-41 | the loop over the dependencies, sharing the ancestor set, gives exactly what `LegacyResolution.ResolveAll` specifies |
| LegacyBuilder.CreateContainerBuilder | src/container-builder.ts:8-10 | both dictionaries start empty; the slot dictionary is a new object |
| LegacyBuilder.SingletonSlots | src/container-builder.ts:48-55 | one `undefined` slot for each added key and no other |
| LegacyBuilder.CreateSingletonInstancesDictionary | src/container-builder.ts:50-54 | the loop over the added keys builds exactly those slots |
| LegacyBuilder.RegisterTransientService | src/container-builder.ts:23-29 | the services are exactly the right-biased merge of the added services over the existing ones; the new builder holds the very same slot dictionary object |
| LegacyBuilder.RegisterSingletonService | src/container-builder.ts:31-42 | the services are exactly the right-biased merge of the added ones; the slots go into a new dictionary object, which gives each added key an `undefined` slot and keeps the other slots, while the old dictionary is left as it was |
| LegacyBuilder.Build | src/container-builder.ts:44-46 | a new `Container3` over the templates and the builder's own slot dictionary object, shared rather than copied |
| LegacyBuilder.ContainersShareSingletons | src/container-builder.ts:44-46 | two containers built from one builder share its slots: once the first returns a singleton, the builder's dictionary holds it and the second container returns that same object |
| LegacyBuilder.DerivedBuilderSharesSingletons | src/container-builder.ts:23-29 | a container of a builder derived by `registerTransientService` returns the singleton a container of the original builder returned |
| LegacyBuilder.ReRegistrationOverwrites | src/container-builder.ts:24-28 | registering a key again replaces its service |
| LegacyBuilder.SingletonSlotSurvivesTransientReRegistration | src/container-builder.ts:28-41 | re-registering a singleton key as transient leaves its slot, so it is still cached as a singleton |
| LegacyProperties.DiamondRejected | src/container.ts:18-38 | a diamond is reported as a circular dependency on the shared dependency, because the ancestor set keeps finished keys |
| LegacyProperties.RevisitInSameCall | src/container2.ts:29-49 | within one call a key built once is met again as its cached singleton when it has a slot, and as a circular dependency otherwise |
| LegacyProperties.WriteBackIffSlot | src/container2.ts:44-46 | a built instance is stored back exactly when its key has a slot, and the key is then an ancestor |
| LegacyProperties.GetServiceFillsSlot | src/container3.ts:29-46 | after a successful `getService` of a key with a slot, the slot holds the returned value, and that value is truthy, so later calls return it at once |
| LegacyProperties.MutualSingletonsRejected | src/container.ts:22 | with no placeholders, even two singletons that need each other are a circular dependency |
| LegacyProperties.CachedSlotShortCircuits | src/container3.ts:30-31 | a truthy slot is returned with no change |
| LegacyProperties.AncestorIsCircular | src/container3.ts:33 | a key already in the call's ancestor set, without a truthy slot, is a circular dependency with that key's message, and nothing changes |
| LegacyProperties.MissingServiceFails | src/container3.ts:35-36 | a key with no template fails with the plain missing-dependency message, and nothing changes |
| LegacyProperties.BuildsFromDependencies | src/container3.ts:38-42 | a registered key joins the ancestor set before its dependencies resolve; their first error is the call's error, otherwise the next object is built from their values |
| LegacyProperties.ResolveAllInOrder | src/container3.ts:39-41 | dependencies `a + b` resolve as `a` first and then `b` from the state `a` left, stopping at the first error |

## Left out

- **No depth bound in the source.**
  - `Resolution.Resolve`, `Resolution.Build` and `Resolution.ResolveAll` carry a `fuel`
    depth bound so that the mutual recursion terminates, and the `OutOfFuel` error marks
    running out. The source has no such bound; a registration that never bottoms out
    exhausts the JavaScript stack instead.
  - `ResolveFuelMonotone` shows that more fuel never changes a result that is not
    `OutOfFuel`.
  - The legacy engine needs no bound, because its ancestor set only grows.
- **Factory bodies.** Constructors and bound functions are opaque: a factory is an
  identifier plus the set of argument positions it reads while constructing. Side effects
  of user constructors are not modelled, such as the counter mutation in the legacy
  tests.
- **Truthiness.** `Truthy` treats every object created by resolution as truthy. It treats
  other values by their recorded truthiness, since constants may be falsy, as in
  `if (singleton)`.
- **Proxy semantics.**
  - The placeholder target is reduced to its own properties (as values, not property
    descriptors), an extensible flag and a prototype identifier.
  - Inherited properties, getters and setters, and ECMAScript's proxy invariant checks
    beyond extensibility are not modelled.
  - The `TypeError` that strict-mode code raises when a `set` trap returns `false` is
    not modelled.
- **`Placeholder.SingletonPlaceholder.OwnKeys`** returns the key set. The order of
  `Reflect.ownKeys` is not modelled.
- **Legacy placeholder.** `src/singleton-placeholder.ts` has the same behaviour as
  `src/classes/singleton-placeholder.ts` apart from its imports and the error's
  constructor argument (`ErrorMessages.UNINITIALIZED_PROPERTY_ACCESS_ERROR`, which
  `src/error-messages.ts` does not define). One class models both. The scenarios cite the
  legacy file and its tests.
- **Legacy containers.**
  - `src/container.ts`, `src/container2.ts` and `src/container3.ts` run the same
    algorithm and differ only in field visibility, naming and the `services` proxy.
  - One class, `LegacyEngine.Container3`, models all three.
  - `LegacyProperties` cites the other two files.
- **Legacy `buildDependencyGraph`.** The copy in `src/error-messages.ts:3-12` is the same
  loop as the one in `src/errors/missing-dependency-error.ts:16-25`. It is modelled once,
  as `MissingDependencyError.BuildDependencyGraph`.
- **Error classes** are reduced to their kind and their key, node or message.
  - `CircularDependencyError`, `MissingInjectableError`, `DuplicateKeyError` and
    `UninitializedPropertyAccessError` are not modelled as texts.
  - `name` and the `Error` prototype chain are not modelled.
- **Type-level API.** `Key.asType`, `bind`, `inject`, `autowire`, the service helper and
  the TypeScript type machinery only shape types or wrap factories. They are not part of
  this model.
- **Names inherited from `Object.prototype` during resolution.** `keyName in ...` is
  modelled for `addKey` and `register`, which therefore never admit such a name. The
  property reads of resolution are not:
- Resolution.Resolve: `this.singletons[name]` for a name such as `toString` returns the
  inherited member, which is truthy, so the source returns that member. This happens for
  an unregistered name, or a registry handed to the `Container` constructor directly (it
  is public and checks nothing) that holds such a name. The model reads own entries only:
  it reports `MissingInjectable`/`MissingDependency` for the unregistered name and builds
  the template of the registered one.
- Engine.Container.ResolveWithDependencyGraph: the same reduction, since it is proved
  equal to `Resolution.Resolve`.
- ResolutionProperties.MissingKeyFails: states the missing-key errors for every
  unregistered name, inherited ones included, where the source returns the inherited
  member.
- LegacyResolution.Resolve: when a name such as `toString` has no own slot,
  `singletonInstances[serviceKey]` sees the inherited member, which is truthy, so the
  source returns that member, even when a template is registered under the name (the
  legacy builder checks no names, so `registerTransientService({toString: S})` does
  that). The model reads own slots and own templates only: it builds the registered
  template, or reports the name missing when there is none.
- LegacyEngine.Container3.GetServiceWithAncestralDependencies: the same difference, since
  it is proved equal to `LegacyResolution.Resolve`.
- **Object identity across legacy containers.** Each `Container3` numbers the objects it
  creates from zero. Two containers built over one slot dictionary can therefore create
  objects that compare equal in the model, although they are distinct in the source.
  Within one container, and for a singleton shared through the dictionary, identity is
  exact.
- **Two views of a placeholder.** The engine's `Forward(slot)` and
  `Placeholder.SingletonPlaceholder` model the same object at two levels of detail. A
  constructor that reads a property of an unbound `Forward` argument
  (`Templates.Instantiate`'s `UninitializedPropertyAccess`) is what
  `Placeholder.SingletonPlaceholder.Get` failing while `instance` is unset looks like
  from inside resolution. The correspondence holds by construction and is not stated as
  a lemma.
- **Number formatting.** The numeric fixtures of the tests (prices, tax rates) are not
  modelled. Floating-point arithmetic is not modelled.

=== FILE: checked_merge.dfy ===
/**
 * `mergeDictionaries` with its guard: both arguments must be of `typeof` "object" (which
 * `null` is too), otherwise it throws an error naming both received types.
 */
module CheckedMerge {
  import opened Wrappers
  import opened Values
  import MergeDictionaries

  /** The `typeof` of a value that is not an object. */
  datatype Primitive = UndefinedType | BooleanType | NumberType | BigIntType | StringType | SymbolType | FunctionType

  /** An argument: an object with its own enumerable entries, `null`, or a value of another `typeof`. */
  datatype Argument = Object(entries: map<string, Value>) | Null | Other(kind: Primitive)

  /** The `typeof` operator. */
  function TypeOf(a: Argument): (t: string)
    ensures t == "object" <==> !a.Other?
  {
    match a
    case Object(_) => "object"
    case Null => "object"
    case Other(kind) =>
      match kind
      case UndefinedType => "undefined"
      case BooleanType => "boolean"
      case NumberType => "number"
      case BigIntType => "bigint"
      case StringType => "string"
      case SymbolType => "symbol"
      case FunctionType => "function"
  }

  /** What spreading an argument contributes: its entries, and nothing for `null`. */
  function Spread(a: Argument): (r: map<string, Value>)
    requires !a.Other?
    ensures a.Null? ==> r == map[]
    ensures a.Object? ==> r == a.entries
  {
    if a.Object? then a.entries else map[]
  }

  /** The guard's fixed opening. */
  const TypeErrorOpening := "mergeDictionaries() expected to receive arguments of type object, object. Received "

  /**
   * The guard's error message: the fixed opening, then the `typeof` of both arguments in
   * argument order, separated by a comma.
   */
  function TypeErrorMessage(current: Argument, added: Argument): (m: string)
    ensures |m| == |TypeErrorOpening| + |TypeOf(current)| + 2 + |TypeOf(added)|
    ensures m[..|TypeErrorOpening|] == TypeErrorOpening
    ensures m[|TypeErrorOpening|..|TypeErrorOpening| + |TypeOf(current)|] == TypeOf(current)
    ensures m[|m| - |TypeOf(added)|..] == TypeOf(added)
  {
    var front := TypeErrorOpening + TypeOf(current);
    assert front[..|TypeErrorOpening|] == TypeErrorOpening;
    assert front[|TypeErrorOpening|..] == TypeOf(current);
    assert (front + ", " + TypeOf(added))[..|front|] == front;
    front + ", " + TypeOf(added)
  }

  /** `mergeDictionaries(currentMap, newMap)`. */
  function Merge(current: Argument, added: Argument): (r: Result<map<string, Value>, string>)
    ensures r.Err? <==> current.Other? || added.Other?
    ensures r.Err? ==> r.error == TypeErrorMessage(current, added)
    ensures r.Ok? ==> r.value == MergeDictionaries.Merge(Spread(current), Spread(added))
  {
    if TypeOf(current) != "object" || TypeOf(added) != "object" then Err(TypeErrorMessage(current, added))
    else Ok(Spread(current) + Spread(added))
  }

  /** A number and a string are refused with a message naming both types. */
  lemma NumberAndStringRefused()
    ensures Merge(Other(NumberType), Other(StringType))
            == Err("mergeDictionaries() expected to receive arguments of type object, object. Received "
                   + "number" + ", " + "string")
  {
    assert TypeOf(Other(NumberType)) == "number" && TypeOf(Other(StringType)) == "string";
  }

  /** `null` passes the guard and contributes no entry. */
  lemma NullMergesAsEmpty(d: map<string, Value>)
    ensures Merge(Null, Object(d)) == Ok(d) && Merge(Object(d), Null) == Ok(d)
  {
    assert map[] + d == d && d + map[] == d;
  }
}

=== FILE: container_builder.dfy ===
/**
 * The current `ContainerBuilder`: an immutable registry of templates that each
 * `register*` call copies, extended by one entry, into a new builder.
 */
module ContainerBuilder {
  import opened Wrappers
  import opened Values
  import opened Keys
  import opened Errors
  import opened Templates
  import opened PlainObject
  import Engine

  datatype ContainerBuilder = ContainerBuilder(injectables: Registry)

  /** `ContainerBuilder.createBuilder()`. */
  function CreateBuilder(): (b: ContainerBuilder)
    ensures b.injectables == map[]
  {
    ContainerBuilder(map[])
  }

  /**
   * `register(keyName, injectable)`: a name already registered, or inherited by the plain
   * registry object from `Object.prototype`, fails with `DuplicateKey`; otherwise the new
   * builder holds the old entries plus the new one.
   */
  function Register(b: ContainerBuilder, keyName: string, t: Template): (r: Result<ContainerBuilder, Error>)
    ensures r.Err? <==> keyName in b.injectables || keyName in InheritedNames
    ensures r.Err? ==> r.error == DuplicateKey(keyName)
    ensures r.Ok? ==> r.value.injectables.Keys == b.injectables.Keys + {keyName}
    ensures r.Ok? ==> r.value.injectables[keyName] == t
    ensures r.Ok? ==> forall n | n in b.injectables :: r.value.injectables[n] == b.injectables[n]
  {
    if HasProperty(b.injectables.Keys, keyName) then Err(DuplicateKey(keyName))
    else Ok(ContainerBuilder(b.injectables[keyName := t]))
  }

  /**
   * A registry built by `register` never holds a name inherited from `Object.prototype`,
   * so such a name can only ever reach `get` unregistered.
   */
  lemma RegisterKeepsOwnNames(b: ContainerBuilder, keyName: string, t: Template)
    requires forall n | n in b.injectables :: n !in InheritedNames
    ensures Register(b, keyName, t).Ok? ==> forall n | n in Register(b, keyName, t).value.injectables :: n !in InheritedNames
  {
  }

  /** `registerClass(key, injectable)`: a transient class. */
  function RegisterClass(b: ContainerBuilder, key: Key, injectable: Injectable): (r: Result<ContainerBuilder, Error>)
    ensures r.Ok? ==> key.name in r.value.injectables && r.value.injectables[key.name] == InjectedClass(injectable.factory, injectable.dependencies, false)
    ensures r.Ok? ==> !IsSingleton(r.value.injectables, key.name)
  {
    Register(b, key.name, InjectedClass(injectable.factory, injectable.dependencies, false))
  }

  /** `registerSingleton(key, injectable)`: a class built once per container. */
  function RegisterSingleton(b: ContainerBuilder, key: Key, injectable: Injectable): (r: Result<ContainerBuilder, Error>)
    ensures r.Ok? ==> key.name in r.value.injectables && r.value.injectables[key.name] == InjectedClass(injectable.factory, injectable.dependencies, true)
    ensures r.Ok? ==> IsSingleton(r.value.injectables, key.name)
  {
    Register(b, key.name, InjectedClass(injectable.factory, injectable.dependencies, true))
  }

  /** `registerFunction(key, bindable)`: a function bound to its dependencies. */
  function RegisterFunction(b: ContainerBuilder, key: Key, bindable: Injectable): (r: Result<ContainerBuilder, Error>)
    ensures r.Ok? ==> key.name in r.value.injectables && r.value.injectables[key.name] == BoundFunction(bindable.factory, bindable.dependencies)
    ensures r.Ok? ==> !IsSingleton(r.value.injectables, key.name)
  {
    Register(b, key.name, BoundFunction(bindable.factory, bindable.dependencies))
  }

  /** `registerConstant(key, value)`: a template whose `resolve()` gives `value`. */
  function RegisterConstant(b: ContainerBuilder, key: Key, value: Value): (r: Result<ContainerBuilder, Error>)
    ensures r.Ok? ==> key.name in r.value.injectables && r.value.injectables[key.name].Constant?
    ensures r.Ok? ==> key.name in r.value.injectables && Instantiate(r.value.injectables[key.name], [], [], 0) == Ok(value)
  {
    Register(b, key.name, Constant(value))
  }

  /** `build()`: a new container over exactly the accumulated registry, with nothing resolved yet. */
  method Build(b: ContainerBuilder) returns (c: Engine.Container)
    ensures fresh(c)
    ensures c.injectables == b.injectables
    ensures c.Snapshot() == Engine.Resolution.Initial
  {
    c := new Engine.Container(b.injectables);
  }

  /**
   * Registering a name twice, or a name inherited from `Object.prototype`, fails whatever
   * kind of template the registration uses.
   */
  lemma DuplicateRejectedForEveryKind(b: ContainerBuilder, key: Key, injectable: Injectable, value: Value)
    requires key.name in b.injectables || key.name in InheritedNames
    ensures RegisterClass(b, key, injectable) == Err(DuplicateKey(key.name))
    ensures RegisterSingleton(b, key, injectable) == Err(DuplicateKey(key.name))
    ensures RegisterFunction(b, key, injectable) == Err(DuplicateKey(key.name))
    ensures RegisterConstant(b, key, value) == Err(DuplicateKey(key.name))
  {
  }

  /** Registrations under distinct names commute. */
  lemma RegistrationsCommute(b: ContainerBuilder, n1: string, t1: Template, n2: string, t2: Template)
    requires n1 != n2 && n1 !in b.injectables && n2 !in b.injectables
    requires n1 !in InheritedNames && n2 !in InheritedNames
    ensures Register(b, n1, t1).Ok? && Register(Register(b, n1, t1).value, n2, t2).Ok?
    ensures Register(b, n2, t2).Ok? && Register(Register(b, n2, t2).value, n1, t1).Ok?
    ensures Register(Register(b, n1, t1).value, n2, t2) == Register(Register(b, n2, t2).value, n1, t1)
  {
    assert b.injectables[n1 := t1][n2 := t2] == b.injectables[n2 := t2][n1 := t1];
  }
}

=== FILE: dependency_graph_node.dfy ===
/**
 * The parent-linked chain of nodes built during one resolution call: each node records
 * a key name, whether that key was registered as a singleton, and the node that asked
 * for it (none for the key passed to `get`).
 */
module DependencyGraphNode {
  import opened Wrappers

  datatype Node = Node(keyName: string, isSingleton: bool, parent: Option<Node>)

  /** Number of parent links above `n`. */
  function Depth(n: Node): nat
    decreases n
  {
    match n.parent
    case None => 0
    case Some(p) => 1 + Depth(p)
  }

  /** The parentless node at the top of the chain. */
  function Root(n: Node): (r: Node)
    ensures r.parent.None?
    decreases n
  {
    match n.parent
    case None => n
    case Some(p) => Root(p)
  }

  /** The nodes from `n` up to the root, `n` first. */
  function Lineage(n: Node): (l: seq<Node>)
    ensures |l| == Depth(n) + 1
    ensures l[0] == n && l[|l| - 1] == Root(n)
    decreases n
  {
    match n.parent
    case None => [n]
    case Some(p) => [n] + Lineage(p)
  }

  /** The key names from `n` up to the root, in the order the diagnostic loop collects them. */
  function KeyNames(n: Node): (names: seq<string>)
    ensures |names| == |Lineage(n)|
    ensures forall i | 0 <= i < |names| :: names[i] == Lineage(n)[i].keyName
    decreases n
  {
    match n.parent
    case None => [n.keyName]
    case Some(p) => [n.keyName] + KeyNames(p)
  }
}

=== FILE: engine.dfy ===
/**
 * The current `Container` class: it owns the registry it was built with and updates its
 * caches in place while it resolves. Each method is proved to do what the matching
 * function of `Resolution` says.
 */
module Engine {
  import opened Wrappers
  import opened Values
  import opened Keys
  import opened Errors
  import opened Templates
  import opened DependencyGraphNode
  import opened Resolution
  import opened ResolutionProperties

  class Container {
    const injectables: Registry
    var resolvedInjectables: set<string>
    var singletons: map<string, Value>
    var singletonPlaceholders: map<string, seq<nat>>
    /** The `instance` field of every placeholder created so far, by creation order. */
    var placeholderInstances: seq<Option<Value>>
    /** The key each placeholder was handed out for, by creation order (proof bookkeeping). */
    ghost var placeholderOwners: seq<string>
    /** How many objects resolution has created (the identity of the next one). */
    var allocations: nat

    /** The container's mutable state as a value. */
    ghost function Snapshot(): State
      reads this
    {
      State(singletons, singletonPlaceholders, resolvedInjectables, placeholderInstances, placeholderOwners, allocations)
    }

    constructor (injectables: Registry)
      ensures this.injectables == injectables
      ensures Snapshot() == Initial
      ensures Valid(injectables, Snapshot()) && Owned(injectables, Snapshot())
    {
      this.injectables := injectables;
      resolvedInjectables := {};
      singletons := map[];
      singletonPlaceholders := map[];
      placeholderInstances := [];
      placeholderOwners := [];
      allocations := 0;
    }

    /** `get(key)`: resolves `key` starting from a node without parent. */
    method Get(key: Key, fuel: nat) returns (r: Result<Value, Error>)
      requires Valid(injectables, Snapshot()) && Owned(injectables, Snapshot())
      modifies this
      ensures Step(r, Snapshot()) == Resolution.Get(injectables, old(Snapshot()), key.name, fuel)
      ensures Valid(injectables, Snapshot()) && Owned(injectables, Snapshot())
    {
      var node := Node(key.name, IsSingleton(injectables, key.name), None);
      ResolvePreservesValid(injectables, Snapshot(), node, fuel);
      ResolvePreservesOwned(injectables, Snapshot(), node, fuel);
      r := ResolveWithDependencyGraph(node, fuel);
    }

    /**
     * `wasPreviouslyResolved(keyName)`. Under the container's invariant a key not resolved
     * before has no cached singleton, and a key resolved before has no pending placeholder.
     */
    predicate WasPreviouslyResolved(keyName: string)
      reads this
      ensures Valid(injectables, Snapshot()) && !WasPreviouslyResolved(keyName) ==> keyName !in singletons
      ensures Valid(injectables, Snapshot()) && WasPreviouslyResolved(keyName) ==> keyName !in singletonPlaceholders
    {
      keyName in resolvedInjectables
    }

    /** `flagResolved(keyName)`. */
    method FlagResolved(keyName: string)
      modifies this
      ensures resolvedInjectables == old(resolvedInjectables) + {keyName}
      ensures singletons == old(singletons) && singletonPlaceholders == old(singletonPlaceholders)
      ensures placeholderInstances == old(placeholderInstances) && allocations == old(allocations)
      ensures placeholderOwners == old(placeholderOwners)
    {
      resolvedInjectables := resolvedInjectables + {keyName};
    }

    /** `completesSingletonOnlyDependencyCycle(node)`: walks up the parent chain. */
    method CompletesSingletonOnlyDependencyCycle(node: Node) returns (r: Result<bool, Error>)
      ensures r == CycleScan(node)
    {
      var keyName := node.keyName;
      var containsOnlySingletons := node.isSingleton;
      var current := node;
      while current.parent.Some?
        invariant ScanFrom(keyName, containsOnlySingletons, current.parent) == CycleScan(node)
        decreases current
      {
        current := current.parent.value;
        if !current.isSingleton {
          containsOnlySingletons := false;
        }
        if current.keyName == keyName {
          if !containsOnlySingletons {
            return Err(CircularDependency(keyName));
          }
          return Ok(true);
        }
      }
      return Ok(false);
    }

    /** Hands out a new placeholder for `keyName` (source lines 63-72). */
    method IssueSingletonPlaceholder(keyName: string) returns (proxy: Value)
      modifies this
      ensures Step(Ok(proxy), Snapshot()) == IssuePlaceholder(old(Snapshot()), keyName)
    {
      if keyName !in singletonPlaceholders {
        singletonPlaceholders := singletonPlaceholders[keyName := []];
      }
      var id := |placeholderInstances|;
      placeholderInstances := placeholderInstances + [None];
      placeholderOwners := placeholderOwners + [keyName];
      singletonPlaceholders := singletonPlaceholders[keyName := singletonPlaceholders[keyName] + [id]];
      proxy := Forward(id);
    }

    /** Sets `instance` on every placeholder handed out for `keyName`, then forgets them. */
    method BindPlaceholders(keyName: string, instance: Value)
      requires keyName in singletonPlaceholders
      modifies this
      ensures placeholderInstances == BindAll(old(placeholderInstances), old(singletonPlaceholders[keyName]), instance)
      ensures singletonPlaceholders == old(singletonPlaceholders) - {keyName}
      ensures singletons == old(singletons) && resolvedInjectables == old(resolvedInjectables)
      ensures allocations == old(allocations) && placeholderOwners == old(placeholderOwners)
    {
      var placeholders := singletonPlaceholders[keyName];
      var j := 0;
      while j < |placeholders|
        invariant 0 <= j <= |placeholders|
        invariant BindAll(placeholderInstances, placeholders[j..], instance)
               == BindAll(old(placeholderInstances), placeholders, instance)
        invariant singletonPlaceholders == old(singletonPlaceholders)
        invariant singletons == old(singletons) && resolvedInjectables == old(resolvedInjectables)
        invariant allocations == old(allocations) && placeholderOwners == old(placeholderOwners)
      {
        placeholderInstances := Bind(placeholderInstances, placeholders[j], instance);
        j := j + 1;
      }
      singletonPlaceholders := singletonPlaceholders - {keyName};
    }

    /** `resolveWithDependencyGraph(node)`. */
    method ResolveWithDependencyGraph(node: Node, fuel: nat) returns (r: Result<Value, Error>)
      modifies this
      ensures Step(r, Snapshot()) == Resolve(injectables, old(Snapshot()), node, fuel)
      decreases fuel, 1
    {
      var k := node.keyName;
      if k in singletons && Truthy(singletons[k]) {
        return Ok(singletons[k]);
      }
      if k !in injectables {
        if node.parent.None? {
          return Err(MissingInjectable(k));
        } else {
          return Err(MissingDependency(node));
        }
      }
      var injectable := injectables[k];
      if injectable.Constant? {
        return Ok(injectable.value);
      }
      if !WasPreviouslyResolved(k) {
        var closes := CompletesSingletonOnlyDependencyCycle(node);
        if closes.Err? {
          return Err(closes.error);
        }
        if closes.value {
          var proxy := IssueSingletonPlaceholder(k);
          return Ok(proxy);
        }
      }
      r := Construct(node, fuel);
    }

    /** Source lines 75-106: resolves the dependencies, creates the instance and commits it. */
    method Construct(node: Node, fuel: nat) returns (r: Result<Value, Error>)
      requires node.keyName in injectables && !injectables[node.keyName].Constant?
      modifies this
      ensures Step(r, Snapshot()) == Build(injectables, old(Snapshot()), node, fuel)
      decreases fuel, 0
    {
      if fuel == 0 {
        return Err(OutOfFuel);
      }
      var k := node.keyName;
      var injectable := injectables[k];
      var resolved := ResolveDependencies(injectable.dependencies, node, fuel - 1);
      if resolved.Err? {
        return Err(resolved.error);
      }
      var resolvedDependencies := resolved.value;
      ghost var mid := Snapshot();
      var made := Instantiate(injectable, resolvedDependencies, placeholderInstances, allocations);
      if made.Err? {
        return Err(made.error);
      }
      var instance := made.value;
      allocations := allocations + 1;
      if node.isSingleton {
        singletons := singletons[k := instance];
        if k in singletonPlaceholders {
          BindPlaceholders(k, instance);
        }
      }
      FlagResolved(k);
      assert Snapshot() == Commit(mid.(allocations := mid.allocations + 1), node, instance);
      return Ok(instance);
    }

    /** Source lines 75-84: `dependencies.map(...)`, resolving each dependency as a child of `node`. */
    method ResolveDependencies(deps: seq<Key>, node: Node, fuel: nat) returns (r: Result<seq<Value>, Error>)
      modifies this
      ensures Step(r, Snapshot()) == ResolveAll(injectables, old(Snapshot()), deps, node, fuel)
      decreases fuel, 2
    {
      var resolvedDependencies: seq<Value> := [];
      var i := 0;
      assert deps[i..] == deps;
      while i < |deps|
        invariant 0 <= i <= |deps|
        invariant ResolveAll(injectables, old(Snapshot()), deps, node, fuel)
               == Prefixed(resolvedDependencies, ResolveAll(injectables, Snapshot(), deps[i..], node, fuel))
      {
        var childNode := Node(deps[i].name, IsSingleton(injectables, deps[i].name), Some(node));
        assert childNode == Child(injectables, deps[i..][0], node);
        assert deps[i..][1..] == deps[i + 1..];
        var resolved := ResolveWithDependencyGraph(childNode, fuel);
        if resolved.Err? {
          return Err(resolved.error);
        }
        PrefixedTwice(resolvedDependencies, [resolved.value], ResolveAll(injectables, Snapshot(), deps[i + 1..], node, fuel));
        resolvedDependencies := resolvedDependencies + [resolved.value];
        i := i + 1;
      }
      assert resolvedDependencies + [] == resolvedDependencies;
      return Ok(resolvedDependencies);
    }
  }
}

=== FILE: error_messages.dfy ===
/** The message formatters of the first generation's `ErrorMessages`. */
module ErrorMessages {
  import opened DependencyGraphNode
  import MissingDependencyError

  /** The fixed text that follows the quoted key in `CIRCULAR_DEPENDENCY_ERROR`. */
  const CircularDependencyTail :=
    " found its own key in its inherited dependency graph. "
      + "This indicates a dependency cycle. Because transient-scope services were detected in the cycle, "
      + "the dependency cycle cannot be resolved. Either ensure that all services in the cycle are "
      + "registered as singletons, or restructure your dependency graph such that there are no longer "
      + "circular dependencies."

  /**
   * `CIRCULAR_DEPENDENCY_ERROR(serviceKey)`: the key in single quotes right after the fixed
   * opening, followed by the fixed explanation.
   */
  function CircularDependencyError(serviceKey: string): (m: string)
    ensures |m| == 19 + |serviceKey| + |CircularDependencyTail|
    ensures m[..17] == "Service with key "
    ensures m[17..19 + |serviceKey|] == "'" + serviceKey + "'"
    ensures m[19 + |serviceKey|..] == CircularDependencyTail
  {
    var head := "Service with key '" + serviceKey + "'";
    assert head[..17] == "Service with key ";
    assert head[17..] == "'" + serviceKey + "'";
    assert (head + CircularDependencyTail)[..|head|] == head;
    head + CircularDependencyTail
  }

  /** The words that follow the key in both missing-dependency messages. */
  const NotFound := " not found"

  /**
   * `MISSING_DEPENDENCY_ERROR(serviceKey)`: the key right after the fixed opening, and
   * a sentence that ends with a period.
   */
  function MissingDependencyErrorMessage(serviceKey: string): (m: string)
    ensures |m| == 28 + |serviceKey|
    ensures m[..17] == "Service with key "
    ensures m[17..17 + |serviceKey|] == serviceKey
    ensures m[|m| - 1] == '.'
  {
    var head := "Service with key " + serviceKey;
    assert head[..17] == "Service with key " && head[17..] == serviceKey;
    assert (head + NotFound + ".")[..|head|] == head;
    head + NotFound + "."
  }

  /**
   * `MISSING_DEPENDENCY_ERROR_WITH_DEPENDENCY_GRAPH(node)`: the plain missing-dependency
   * message for the node's key with the rendered chain inserted before its final period.
   */
  function MissingDependencyErrorWithDependencyGraph(node: Node): (m: string)
    ensures var plain := MissingDependencyErrorMessage(node.keyName);
            m == plain[..|plain| - 1] + ". Dependency graph is " + MissingDependencyError.DependencyGraph(node) + "."
  {
    var sentence := "Service with key " + node.keyName + NotFound;
    assert MissingDependencyErrorMessage(node.keyName)[..|sentence|] == sentence;
    sentence + ". Dependency graph is " + MissingDependencyError.DependencyGraph(node) + "."
  }

  /** The message with a dependency graph is the message of the current `MissingDependencyError`. */
  lemma WithGraphIsCurrentMessage(node: Node)
    ensures MissingDependencyErrorWithDependencyGraph(node) == MissingDependencyError.GetMessage(node)
  {
    var head := "Service with key " + node.keyName;
    assert NotFound + ". Dependency graph is " == " not found. Dependency graph is ";
    assert head + NotFound + ". Dependency graph is " == head + " not found. Dependency graph is ";
  }
}

=== FILE: errors.dfy ===
/** The errors the current container throws, one variant per error class. */
module Errors {
  import opened DependencyGraphNode

  datatype Error =
    | DuplicateKey(keyName: string)
    | MissingInjectable(keyName: string)
      /** carries the node of the missing key, so that the whole chain can be rendered */
    | MissingDependency(node: Node)
    | CircularDependency(keyName: string)
    | UninitializedPropertyAccess
      /** not in the source: the model's recursion bound ran out */
    | OutOfFuel
}

=== FILE: keys.dfy ===
/**
 * Typed key tokens and the `Keys` generator. The value type a key stands for exists only
 * at compile time, so a key is its name.
 */
module Keys {
  import opened Wrappers
  import opened Errors
  import opened PlainObject

  datatype Key = Key(name: string)

  /** An immutable map from key names to keys. */
  datatype Keys = Keys(keys: map<string, Key>)

  /** What `addKey(name)` returns: the pending addition, completed by `forType`. */
  datatype PendingKey = PendingKey(keys: map<string, Key>, name: string)
  {
    /** `forType<U>()`: a new `Keys` over a copy of the map with the new key added. */
    function ForType(): (ks: Keys)
      ensures ks.keys.Keys == keys.Keys + {name}
      ensures ks.keys[name] == Key(name)
      ensures forall n | n in keys && n != name :: ks.keys[n] == keys[n]
    {
      Keys(keys[name := Key(name)])
    }
  }

  /** Every key is stored under its own name. */
  predicate WellFormed(ks: Keys) {
    forall n | n in ks.keys :: ks.keys[n].name == n
  }

  /** `Keys.createKeys()`. */
  function CreateKeys(): (ks: Keys)
    ensures ks.keys == map[]
    ensures WellFormed(ks)
  {
    Keys(map[])
  }

  /**
   * `addKey(name)`: refuses a name already present at once, before `forType` is called;
   * the receiver is a value and is left as it was either way. The key map is a plain
   * object, so a name it inherits from `Object.prototype` counts as present too.
   */
  function AddKey(ks: Keys, name: string): (r: Result<PendingKey, Error>)
    ensures r.Err? <==> name in ks.keys || name in InheritedNames
    ensures r.Err? ==> r.error == DuplicateKey(name)
    ensures r.Ok? ==> r.value == PendingKey(ks.keys, name)
  {
    if HasProperty(ks.keys.Keys, name) then Err(DuplicateKey(name)) else Ok(PendingKey(ks.keys, name))
  }

  /** No key map built by `addKey` holds a name inherited from `Object.prototype`. */
  lemma AddKeyKeepsOwnNames(ks: Keys, name: string)
    requires forall n | n in ks.keys :: n !in InheritedNames
    ensures AddKey(ks, name).Ok? ==> forall n | n in AddKey(ks, name).value.ForType().keys :: n !in InheritedNames
  {
  }

  /** `addKey("toString")` on a fresh key map fails: the name is inherited. */
  lemma InheritedNameRefused()
    ensures AddKey(CreateKeys(), "toString") == Err(DuplicateKey("toString"))
  {
  }

  /** Adding a key keeps every key stored under its own name. */
  lemma AddKeyPreservesWellFormed(ks: Keys, name: string)
    requires WellFormed(ks)
    ensures AddKey(ks, name).Ok? ==> WellFormed(AddKey(ks, name).value.ForType())
  {
  }

  /** Adding a name, then adding it again, fails with `DuplicateKeyError` for that name. */
  lemma AddKeyTwiceFails(ks: Keys, name: string)
    requires AddKey(ks, name).Ok?
    ensures AddKey(AddKey(ks, name).value.ForType(), name) == Err(DuplicateKey(name))
  {
  }

  /** The chain of the container tests: three keys, each under its own name. */
  lemma ThreeKeysExample()
    ensures var ks0 := CreateKeys();
            var ks1 := AddKey(ks0, "Multiply").value.ForType();
            var ks2 := AddKey(ks1, "ApplyTaxes").value.ForType();
            AddKey(ks2, "TaxRate").Ok? &&
            AddKey(ks2, "TaxRate").value.ForType().keys
              == map["Multiply" := Key("Multiply"), "ApplyTaxes" := Key("ApplyTaxes"), "TaxRate" := Key("TaxRate")]
  {
    assert "Multiply" !in InheritedNames && "ApplyTaxes" !in InheritedNames && "TaxRate" !in InheritedNames by {
      forall n | n in InheritedNames ensures n[0] == 'c' || n[0] == 'h' || n[0] == 'i' || n[0] == 'p' || n[0] == 't' || n[0] == 'v' || n[0] == '_' {
      }
    }
  }
}

=== FILE: legacy_builder.dfy ===
/**
 * The first generation's `ContainerBuilder`: two dictionaries, the service templates and
 * the singleton slots, each grown by right-biased merge with no duplicate check. The
 * templates are never changed once merged, so they are a value; the slot dictionary is
 * written by the containers built over it, so it is a shared `SlotDictionary` object.
 */
module LegacyBuilder {
  import opened Wrappers
  import opened Values
  import opened LegacyResolution
  import MergeDictionaries
  import LegacyEngine
  import LegacyProperties

  datatype ContainerBuilder = ContainerBuilder(servicesDictionary: Services, singletonInstancesDictionary: LegacyEngine.SlotDictionary)

  /** `createContainerBuilder()`: two new, empty dictionaries. */
  method CreateContainerBuilder() returns (b: ContainerBuilder)
    ensures b.servicesDictionary == map[] && b.singletonInstancesDictionary.entries == map[]
    ensures fresh(b.singletonInstancesDictionary)
  {
    var slots := new LegacyEngine.SlotDictionary(map[]);
    b := ContainerBuilder(map[], slots);
  }

  /** The dictionary `createSingletonInstancesDictionary` builds: every key of `added`, mapped to `Undefined`. */
  function SingletonSlots(added: Services): (slots: map<string, Value>)
    ensures slots.Keys == added.Keys
    ensures forall k | k in slots :: slots[k] == Undefined
  {
    map k | k in added :: Undefined
  }

  /** `createSingletonInstancesDictionary(added)`: a `for...in` loop over the keys of `added`. */
  method CreateSingletonInstancesDictionary(added: Services) returns (slots: map<string, Value>)
    ensures slots == SingletonSlots(added)
  {
    slots := map[];
    var remaining := added.Keys;
    while remaining != {}
      invariant remaining <= added.Keys
      invariant slots == map k | k in added.Keys - remaining :: Undefined
      decreases remaining
    {
      var key :| key in remaining;
      slots := slots[key := Undefined];
      remaining := remaining - {key};
    }
  }

  /**
   * `registerTransientService(added)`: merges the templates; the new builder holds the very
   * same slot dictionary object.
   */
  function RegisterTransientService(b: ContainerBuilder, added: Services): (r: ContainerBuilder)
    ensures r.servicesDictionary == MergeDictionaries.Merge(b.servicesDictionary, added)
    ensures r.servicesDictionary.Keys == b.servicesDictionary.Keys + added.Keys
    ensures forall k | k in added :: r.servicesDictionary[k] == added[k]
    ensures r.singletonInstancesDictionary == b.singletonInstancesDictionary
  {
    ContainerBuilder(MergeDictionaries.Merge(b.servicesDictionary, added), b.singletonInstancesDictionary)
  }

  /**
   * `registerSingletonService(added)`: merges the templates, and merges an `undefined` slot
   * per added key into a new slot dictionary, leaving the old one untouched.
   */
  method RegisterSingletonService(b: ContainerBuilder, added: Services) returns (r: ContainerBuilder)
    ensures r.servicesDictionary == MergeDictionaries.Merge(b.servicesDictionary, added)
    ensures r.servicesDictionary.Keys == b.servicesDictionary.Keys + added.Keys
    ensures forall k | k in added :: r.servicesDictionary[k] == added[k]
    ensures fresh(r.singletonInstancesDictionary)
    ensures r.singletonInstancesDictionary.entries
         == MergeDictionaries.Merge(b.singletonInstancesDictionary.entries, SingletonSlots(added))
    ensures r.singletonInstancesDictionary.entries.Keys == b.singletonInstancesDictionary.entries.Keys + added.Keys
    ensures forall k | k in added :: r.singletonInstancesDictionary.entries[k] == Undefined
    ensures forall k | k in b.singletonInstancesDictionary.entries && k !in added ::
              r.singletonInstancesDictionary.entries[k] == b.singletonInstancesDictionary.entries[k]
  {
    var additional := CreateSingletonInstancesDictionary(added);
    var expanded := new LegacyEngine.SlotDictionary(MergeDictionaries.Merge(b.singletonInstancesDictionary.entries, additional));
    r := ContainerBuilder(MergeDictionaries.Merge(b.servicesDictionary, added), expanded);
  }

  /** `build()`: a `Container3` over the templates and the builder's own slot dictionary object. */
  method Build(b: ContainerBuilder) returns (c: LegacyEngine.Container3)
    ensures fresh(c) && c.allocations == 0
    ensures c.serviceTemplates == b.servicesDictionary && c.singletonInstances == b.singletonInstancesDictionary
  {
    c := new LegacyEngine.Container3(b.servicesDictionary, b.singletonInstancesDictionary);
  }

  /**
   * Two containers built from one builder share its slots: a singleton the first one
   * returns is written into the builder's dictionary, and the second one returns that same
   * object without creating anything.
   */
  method ContainersShareSingletons(b: ContainerBuilder, key: string)
    returns (first: Result<Value, LegacyError>, second: Result<Value, LegacyError>)
    requires key in b.singletonInstancesDictionary.entries
    modifies b.singletonInstancesDictionary
    ensures first.Ok? ==> second == first
    ensures first.Ok? ==> key in b.singletonInstancesDictionary.entries && b.singletonInstancesDictionary.entries[key] == first.value
  {
    var c1 := Build(b);
    var c2 := Build(b);
    LegacyProperties.GetServiceFillsSlot(b.servicesDictionary, b.singletonInstancesDictionary.entries, 0, key);
    first := c1.Services(key);
    second := c2.Services(key);
  }

  /**
   * A builder derived by a transient registration shares its parent's slots too: a
   * singleton returned by a container of the parent is what a container of the derived
   * builder returns.
   */
  method DerivedBuilderSharesSingletons(b: ContainerBuilder, added: Services, key: string)
    returns (first: Result<Value, LegacyError>, second: Result<Value, LegacyError>)
    requires key in b.singletonInstancesDictionary.entries
    modifies b.singletonInstancesDictionary
    ensures first.Ok? ==> second == first
  {
    var c1 := Build(b);
    var c2 := Build(RegisterTransientService(b, added));
    LegacyProperties.GetServiceFillsSlot(b.servicesDictionary, b.singletonInstancesDictionary.entries, 0, key);
    first := c1.Services(key);
    second := c2.Services(key);
  }

  /** Registering a key again silently replaces its template; nothing is refused. */
  lemma ReRegistrationOverwrites(b: ContainerBuilder, key: string, first: Service, second: Service)
    ensures var r := RegisterTransientService(RegisterTransientService(b, map[key := first]), map[key := second]);
            r.servicesDictionary[key] == second && r.servicesDictionary.Keys == b.servicesDictionary.Keys + {key}
  {
  }

  /**
   * A key registered as a singleton and later as a transient keeps its singleton slot, so
   * the engine still caches it.
   */
  method SingletonSlotSurvivesTransientReRegistration(b: ContainerBuilder, key: string, first: Service, second: Service)
    returns (r: ContainerBuilder)
    ensures key in r.singletonInstancesDictionary.entries && key in r.servicesDictionary && r.servicesDictionary[key] == second
  {
    var singleton := RegisterSingletonService(b, map[key := first]);
    r := RegisterTransientService(singleton, map[key := second]);
  }
}

=== FILE: legacy_engine.dfy ===
/**
 * The first generation's container class (`Container3`, which the builder returns; the
 * older `Container` and `Container2` run the same algorithm). The ancestor set is one
 * mutable `Set` object that every nested call of a `getService` call shares and adds to.
 */
module LegacyEngine {
  import opened Wrappers
  import opened Values
  import opened LegacyResolution
  import ErrorMessages

  /** The `Set` of ancestral dependencies passed down one `getService` call. */
  class AncestorSet {
    var members: set<string>

    constructor ()
      ensures members == {}
    {
      members := {};
    }

    method Add(key: string)
      modifies this
      ensures members == old(members) + {key}
    {
      members := members + {key};
    }
  }

  /**
   * A singleton-slot dictionary: the plain object a builder creates and hands, by
   * reference, to every container it builds and to every builder derived from it by a
   * transient registration.
   */
  class SlotDictionary {
    var entries: map<string, Value>

    constructor (entries: map<string, Value>)
      ensures this.entries == entries
    {
      this.entries := entries;
    }
  }

  class Container3 {
    const serviceTemplates: Services
    /** The dictionary object the container was built with, not a copy of it. */
    const singletonInstances: SlotDictionary
    /** How many objects resolution has created (the identity of the next one). */
    var allocations: nat

    constructor (serviceTemplates: Services, singletonInstances: SlotDictionary)
      ensures this.serviceTemplates == serviceTemplates && this.singletonInstances == singletonInstances
      ensures allocations == 0
    {
      this.serviceTemplates := serviceTemplates;
      this.singletonInstances := singletonInstances;
      allocations := 0;
    }

    /** The state a call works on, with `ancestors` as its ancestor set. */
    function Snapshot(ancestors: AncestorSet): State
      reads this, singletonInstances, ancestors
    {
      State(singletonInstances.entries, ancestors.members, allocations)
    }

    /** Reading property `prop` of the `services` proxy. */
    method Services(prop: string) returns (r: Result<Value, LegacyError>)
      modifies this, singletonInstances
      ensures var s := GetService(serviceTemplates, old(singletonInstances.entries), old(allocations), prop);
              r == s.outcome && singletonInstances.entries == s.state.singletonInstances && allocations == s.state.allocations
    {
      r := GetServiceFresh(prop);
    }

    /** `getService(serviceKey)`: resolves with a new, empty ancestor set. */
    method GetServiceFresh(serviceKey: string) returns (r: Result<Value, LegacyError>)
      modifies this, singletonInstances
      ensures var s := GetService(serviceTemplates, old(singletonInstances.entries), old(allocations), serviceKey);
              r == s.outcome && singletonInstances.entries == s.state.singletonInstances && allocations == s.state.allocations
    {
      var ancestralDependencies := new AncestorSet();
      r := GetServiceWithAncestralDependencies(serviceKey, ancestralDependencies);
    }

    /** `getServiceWithAncestralDependencies(serviceKey, ancestralDependencies)`. */
    method GetServiceWithAncestralDependencies(serviceKey: string, ancestralDependencies: AncestorSet)
      returns (r: Result<Value, LegacyError>)
      modifies this, singletonInstances, ancestralDependencies
      ensures Step(r, Snapshot(ancestralDependencies)) == Resolve(serviceTemplates, old(Snapshot(ancestralDependencies)), serviceKey)
      decreases |serviceTemplates.Keys - ancestralDependencies.members|, 0
    {
      if serviceKey in singletonInstances.entries && Truthy(singletonInstances.entries[serviceKey]) {
        return Ok(singletonInstances.entries[serviceKey]);
      }
      if serviceKey in ancestralDependencies.members {
        return Err(CircularDependencyError(CircularMessage(serviceKey)));
      }
      if serviceKey !in serviceTemplates {
        return Err(MissingDependencyError(ErrorMessages.MissingDependencyErrorMessage(serviceKey)));
      }
      var service := serviceTemplates[serviceKey];
      VisitShrinks(serviceTemplates.Keys, ancestralDependencies.members, serviceKey);
      ancestralDependencies.Add(serviceKey);
      var resolved := ResolveDependencies(service.dependencies, ancestralDependencies);
      if resolved.Err? {
        return Err(resolved.error);
      }
      var resolvedDependencies := resolved.value;
      var instance := Instance(service.ctor.id, resolvedDependencies, allocations);
      allocations := allocations + 1;
      if serviceKey in singletonInstances.entries {
        singletonInstances.entries := singletonInstances.entries[serviceKey := instance];
      }
      return Ok(instance);
    }

    /** `dependencies.map(...)`: resolves each dependency in order, sharing the ancestor set. */
    method ResolveDependencies(deps: seq<string>, ancestralDependencies: AncestorSet)
      returns (r: Result<seq<Value>, LegacyError>)
      modifies this, singletonInstances, ancestralDependencies
      ensures Step(r, Snapshot(ancestralDependencies)) == ResolveAll(serviceTemplates, old(Snapshot(ancestralDependencies)), deps)
      decreases |serviceTemplates.Keys - ancestralDependencies.members|, 1
    {
      ghost var entry := Snapshot(ancestralDependencies);
      var resolvedDependencies: seq<Value> := [];
      var i := 0;
      assert deps[i..] == deps;
      while i < |deps|
        invariant 0 <= i <= |deps|
        invariant entry.ancestors <= ancestralDependencies.members
        invariant ResolveAll(serviceTemplates, entry, deps)
               == Prefixed(resolvedDependencies, ResolveAll(serviceTemplates, Snapshot(ancestralDependencies), deps[i..]))
      {
        assert deps[i..][1..] == deps[i + 1..];
        UnvisitedShrinks(serviceTemplates.Keys, entry.ancestors, ancestralDependencies.members);
        var resolved := GetServiceWithAncestralDependencies(deps[i], ancestralDependencies);
        if resolved.Err? {
          return Err(resolved.error);
        }
        PrefixedTwice(resolvedDependencies, [resolved.value],
          ResolveAll(serviceTemplates, Snapshot(ancestralDependencies), deps[i + 1..]));
        resolvedDependencies := resolvedDependencies + [resolved.value];
        i := i + 1;
      }
      assert resolvedDependencies + [] == resolvedDependencies;
      return Ok(resolvedDependencies);
    }
  }
}

=== FILE: legacy_properties.dfy ===
/** Properties of the first generation's resolution algorithm. */
module LegacyProperties {
  import opened Wrappers
  import opened Values
  import opened LegacyResolution
  import ErrorMessages

  // ---------------------------------------------------------------------------
  // One call of `getServiceWithAncestralDependencies`, branch by branch

  /** A truthy slot is returned at once, and nothing changes. */
  lemma CachedSlotShortCircuits(services: Services, st: State, key: string)
    requires key in st.singletonInstances && Truthy(st.singletonInstances[key])
    ensures Resolve(services, st, key) == Step(Ok(st.singletonInstances[key]), st)
  {
  }

  /**
   * A key already in the call's ancestor set, without a truthy slot, is a circular
   * dependency named after that key, and nothing changes.
   */
  lemma AncestorIsCircular(services: Services, st: State, key: string)
    requires !(key in st.singletonInstances && Truthy(st.singletonInstances[key]))
    requires key in st.ancestors
    ensures Resolve(services, st, key) == Step(Err(CircularDependencyError(CircularMessage(key))), st)
  {
  }

  /**
   * A key with no template, neither cached nor an ancestor, fails with the plain
   * missing-dependency message, and nothing changes.
   */
  lemma MissingServiceFails(services: Services, st: State, key: string)
    requires !(key in st.singletonInstances && Truthy(st.singletonInstances[key]))
    requires key !in st.ancestors && key !in services
    ensures Resolve(services, st, key)
            == Step(Err(MissingDependencyError(ErrorMessages.MissingDependencyErrorMessage(key))), st)
  {
  }

  /**
   * A registered key joins the ancestor set before its dependencies are resolved; their
   * first error is the call's error, and otherwise the instance is built from their values
   * as the next object.
   */
  lemma BuildsFromDependencies(services: Services, st: State, key: string)
    requires !(key in st.singletonInstances && Truthy(st.singletonInstances[key]))
    requires key !in st.ancestors && key in services
    ensures var deps := ResolveAll(services, st.(ancestors := st.ancestors + {key}), services[key].dependencies);
            var r := Resolve(services, st, key);
            && (deps.outcome.Err? ==> r == Step(Err(deps.outcome.error), deps.state))
            && (deps.outcome.Ok? ==>
                  && r.outcome == Ok(Instance(services[key].ctor.id, deps.outcome.value, deps.state.allocations))
                  && r.state.ancestors == deps.state.ancestors
                  && r.state.allocations == deps.state.allocations + 1)
  {
  }

  /**
   * Dependencies are resolved left to right with one shared ancestor set: resolving
   * `a + b` is resolving `a`, then resolving `b` from the state `a` left, stopping at the
   * first error.
   */
  lemma {:induction false} ResolveAllInOrder(services: Services, st: State, a: seq<string>, b: seq<string>)
    ensures var ra := ResolveAll(services, st, a);
            ResolveAll(services, st, a + b)
            == if ra.outcome.Err? then ra else Prefixed(ra.outcome.value, ResolveAll(services, ra.state, b))
    decreases |a|
  {
    if a == [] {
      assert a + b == b;
    } else {
      assert (a + b)[0] == a[0] && (a + b)[1..] == a[1..] + b;
      var first := Resolve(services, st, a[0]);
      if first.outcome.Ok? {
        ResolveAllInOrder(services, first.state, a[1..], b);
        var rest := ResolveAll(services, first.state, a[1..]);
        if rest.outcome.Ok? {
          PrefixedTwice([first.outcome.value], rest.outcome.value, ResolveAll(services, rest.state, b));
        }
      }
    }
  }

  // ---------------------------------------------------------------------------
  // Scenarios

  /** A diamond of transient services: `A` needs `B` and `C`, and both need `D`. */
  function Diamond(): Services
  {
    map[
      "A" := Service(Factory(0, {}), ["B", "C"]),
      "B" := Service(Factory(1, {}), ["D"]),
      "C" := Service(Factory(2, {}), ["D"]),
      "D" := Service(Factory(3, {}), [])]
  }

  /**
   * The shared ancestor set makes the diamond fail: `D`, built under `B`, is still an
   * ancestor when `C` asks for it.
   */
  lemma DiamondRejected()
    ensures GetService(Diamond(), map[], 0, "A").outcome == Err(CircularDependencyError(CircularMessage("D")))
  {
    var s := Diamond();
    var dv := Instance(3, [], 0);
    var bv := Instance(1, [dv], 1);
    var afterD := State(map[], {"A", "B", "D"}, 1);
    assert Resolve(s, State(map[], {"A", "B"}, 0), "D") == Step(Ok(dv), afterD) by {
      assert {"A", "B"} + {"D"} == {"A", "B", "D"};
    }
    assert ["D"][1..] == [];
    assert ResolveAll(s, afterD, []) == Step(Ok([]), afterD);
    assert [dv] + [] == [dv];
    assert ResolveAll(s, State(map[], {"A", "B"}, 0), ["D"]) == Step(Ok([dv]), afterD);
    var afterB := State(map[], {"A", "B", "D"}, 2);
    assert Resolve(s, State(map[], {"A"}, 0), "B") == Step(Ok(bv), afterB) by {
      assert {"A"} + {"B"} == {"A", "B"};
    }
    var visitingC := State(map[], {"A", "B", "D", "C"}, 2);
    assert Resolve(s, visitingC, "D") == Step(Err(CircularDependencyError(CircularMessage("D"))), visitingC);
    assert ResolveAll(s, visitingC, ["D"]).outcome == Err(CircularDependencyError(CircularMessage("D")));
    assert Resolve(s, afterB, "C").outcome == Err(CircularDependencyError(CircularMessage("D"))) by {
      assert {"A", "B", "D"} + {"C"} == {"A", "B", "D", "C"};
    }
    assert ["B", "C"][1..] == ["C"];
    assert ResolveAll(s, afterB, ["C"]).outcome == Err(CircularDependencyError(CircularMessage("D")));
    assert ResolveAll(s, State(map[], {"A"}, 0), ["B", "C"]).outcome == Err(CircularDependencyError(CircularMessage("D")));
    assert {} + {"A"} == {"A"};
  }

  /**
   * Within one call, a key built once is met again either as the cached singleton (when it
   * has a slot) or as a circular dependency (when it has none).
   */
  lemma RevisitInSameCall(services: Services, st: State, key: string)
    requires !(key in st.singletonInstances && Truthy(st.singletonInstances[key]))
    requires Resolve(services, st, key).outcome.Ok?
    ensures var r := Resolve(services, st, key);
            var again := Resolve(services, r.state, key);
            && (key in st.singletonInstances ==> again == r)
            && (key !in st.singletonInstances ==> again == Step(Err(CircularDependencyError(CircularMessage(key))), r.state))
  {
  }

  /**
   * A built instance is stored back exactly when its key has a slot; a key without a slot
   * never gets one.
   */
  lemma WriteBackIffSlot(services: Services, st: State, key: string)
    requires !(key in st.singletonInstances && Truthy(st.singletonInstances[key]))
    requires Resolve(services, st, key).outcome.Ok?
    ensures var r := Resolve(services, st, key);
            && (key in st.singletonInstances <==> key in r.state.singletonInstances)
            && (key in st.singletonInstances ==> r.state.singletonInstances[key] == r.outcome.value)
            && key in r.state.ancestors
  {
  }

  /**
   * After a successful `getService` of a key that has a slot, the slot holds the value
   * returned, and that value is truthy, so the next call returns it at once.
   */
  lemma GetServiceFillsSlot(services: Services, slots: map<string, Value>, allocations: nat, key: string)
    requires key in slots
    ensures var r := GetService(services, slots, allocations, key);
            r.outcome.Ok? ==>
              && key in r.state.singletonInstances && r.state.singletonInstances[key] == r.outcome.value
              && Truthy(r.outcome.value)
  {
    var st := State(slots, {}, allocations);
    if !Truthy(slots[key]) && Resolve(services, st, key).outcome.Ok? {
      WriteBackIffSlot(services, st, key);
    }
  }

  /** Two singletons that need each other. */
  function MutualSingletons(): Services
  {
    map["A" := Service(Factory(0, {}), ["B"]), "B" := Service(Factory(1, {}), ["A"])]
  }

  /** The first generation has no placeholders: a cycle fails even when every member is a singleton. */
  lemma MutualSingletonsRejected()
    ensures GetService(MutualSingletons(), map["A" := Undefined, "B" := Undefined], 0, "A").outcome
            == Err(CircularDependencyError(CircularMessage("A")))
  {
    var s := MutualSingletons();
    var slots := map["A" := Undefined, "B" := Undefined];
    var visitingB := State(slots, {"A", "B"}, 0);
    assert Resolve(s, visitingB, "A").outcome == Err(CircularDependencyError(CircularMessage("A")));
    assert ResolveAll(s, visitingB, ["A"]).outcome == Err(CircularDependencyError(CircularMessage("A")));
    assert Resolve(s, State(slots, {"A"}, 0), "B").outcome == Err(CircularDependencyError(CircularMessage("A"))) by {
      assert {"A"} + {"B"} == {"A", "B"};
    }
    assert ResolveAll(s, State(slots, {"A"}, 0), ["B"]).outcome == Err(CircularDependencyError(CircularMessage("A")));
    assert {} + {"A"} == {"A"};
  }
}

=== FILE: legacy_resolution.dfy ===
/**
 * The first generation's resolution algorithm (`getServiceWithAncestralDependencies`, the
 * same in `Container`, `Container2` and `Container3`), as pure functions over the state it
 * changes: the singleton-slot dictionary, the ancestor set shared by the whole call, and
 * the number of objects created so far.
 */
module LegacyResolution {
  import opened Wrappers
  import opened Values
  import ErrorMessages

  /** A `Service`: a constructor and the names of its dependencies. */
  datatype Service = Service(ctor: Factory, dependencies: seq<string>)

  type Services = map<string, Service>

  datatype LegacyError = CircularDependencyError(message: string) | MissingDependencyError(message: string)

  /**
   * `singletonInstances` (a key is singleton-scoped when present, its slot `Undefined`
   * until built), the ancestor set of the current call, and the object counter.
   */
  datatype State = State(singletonInstances: map<string, Value>, ancestors: set<string>, allocations: nat)

  datatype Step<T> = Step(outcome: Result<T, LegacyError>, state: State)

  /** The message thrown when a key is met again in its own call. */
  function CircularMessage(serviceKey: string): string
  {
    serviceKey + " found in inherited dependencies of " + serviceKey + ". This indicates a circular dependency."
  }

  lemma UnvisitedShrinks(all: set<string>, before: set<string>, after: set<string>)
    requires before <= after
    ensures |all - after| <= |all - before|
  {
    assert all - after <= all - before;
    SubsetCardinality(all - after, all - before);
  }

  lemma VisitShrinks(all: set<string>, before: set<string>, key: string)
    requires key in all && key !in before
    ensures |all - (before + {key})| < |all - before|
  {
    assert all - (before + {key}) == (all - before) - {key};
  }

  lemma {:induction false} SubsetCardinality(a: set<string>, b: set<string>)
    requires a <= b
    ensures |a| <= |b|
    decreases |b|
  {
    if a != {} {
      var x :| x in a;
      SubsetCardinality(a - {x}, b - {x});
    }
  }

  /** Filling an existing slot keeps the set of slots. */
  lemma FillKeepsSlots(slots: map<string, Value>, key: string, v: Value)
    requires key in slots
    ensures slots[key := v].Keys == slots.Keys
  {
  }

  /**
   * `getServiceWithAncestralDependencies(serviceKey, ancestralDependencies)`. The call
   * terminates: every key it builds joins the ancestor set for good, so each nested call
   * has fewer registered keys left to visit.
   */
  function Resolve(services: Services, st: State, serviceKey: string): (r: Step<Value>)
    ensures st.ancestors <= r.state.ancestors
    ensures r.state.singletonInstances.Keys == st.singletonInstances.Keys
    ensures st.allocations <= r.state.allocations
    decreases |services.Keys - st.ancestors|, 0
  {
    if serviceKey in st.singletonInstances && Truthy(st.singletonInstances[serviceKey]) then
      Step(Ok(st.singletonInstances[serviceKey]), st)
    else if serviceKey in st.ancestors then
      Step(Err(CircularDependencyError(CircularMessage(serviceKey))), st)
    else if serviceKey !in services then
      Step(Err(MissingDependencyError(ErrorMessages.MissingDependencyErrorMessage(serviceKey))), st)
    else
      var service := services[serviceKey];
      var visiting := st.(ancestors := st.ancestors + {serviceKey});
      VisitShrinks(services.Keys, st.ancestors, serviceKey);
      var deps := ResolveAll(services, visiting, service.dependencies);
      match deps.outcome
      case Err(e) => Step(Err(e), deps.state)
      case Ok(args) =>
        var instance := Instance(service.ctor.id, args, deps.state.allocations);
        var built := deps.state.(allocations := deps.state.allocations + 1);
        if serviceKey in built.singletonInstances then
          FillKeepsSlots(built.singletonInstances, serviceKey, instance);
          Step(Ok(instance), built.(singletonInstances := built.singletonInstances[serviceKey := instance]))
        else Step(Ok(instance), built)
  }

  /** `dependencies.map(...)`: every dependency in order, sharing one ancestor set. */
  function ResolveAll(services: Services, st: State, deps: seq<string>): (r: Step<seq<Value>>)
    ensures st.ancestors <= r.state.ancestors
    ensures r.state.singletonInstances.Keys == st.singletonInstances.Keys
    ensures st.allocations <= r.state.allocations
    ensures r.outcome.Ok? ==> |r.outcome.value| == |deps|
    decreases |services.Keys - st.ancestors|, 1, |deps|
  {
    if deps == [] then Step(Ok([]), st)
    else
      var first := Resolve(services, st, deps[0]);
      match first.outcome
      case Err(e) => Step(Err(e), first.state)
      case Ok(v) =>
        UnvisitedShrinks(services.Keys, st.ancestors, first.state.ancestors);
        var rest := ResolveAll(services, first.state, deps[1..]);
        Prefixed([v], rest)
  }

  /** Puts `prefix` in front of the values of a successful step. */
  function Prefixed(prefix: seq<Value>, s: Step<seq<Value>>): (r: Step<seq<Value>>)
    ensures r.state == s.state && r.outcome.Err? == s.outcome.Err?
    ensures s.outcome.Ok? ==> r.outcome.value == prefix + s.outcome.value
    ensures prefix == [] ==> r == s
  {
    match s.outcome
    case Ok(vs) =>
      assert prefix == [] ==> prefix + vs == vs;
      Step(Ok(prefix + vs), s.state)
    case Err(_) => s
  }

  lemma PrefixedTwice(front: seq<Value>, back: seq<Value>, s: Step<seq<Value>>)
    ensures Prefixed(front, Prefixed(back, s)) == Prefixed(front + back, s)
  {
    if s.outcome.Ok? {
      assert front + (back + s.outcome.value) == (front + back) + s.outcome.value;
    }
  }

  /**
   * `getService(serviceKey)`: a call with a fresh, empty ancestor set. A truthy slot is
   * returned as it is; an unregistered key without one fails with the missing-dependency
   * message; the set of slots never changes.
   */
  function GetService(services: Services, singletonInstances: map<string, Value>, allocations: nat, serviceKey: string): (r: Step<Value>)
    ensures serviceKey in singletonInstances && Truthy(singletonInstances[serviceKey]) ==>
              r == Step(Ok(singletonInstances[serviceKey]), State(singletonInstances, {}, allocations))
    ensures !(serviceKey in singletonInstances && Truthy(singletonInstances[serviceKey])) && serviceKey !in services ==>
              r.outcome == Err(MissingDependencyError(ErrorMessages.MissingDependencyErrorMessage(serviceKey)))
    ensures r.state.singletonInstances.Keys == singletonInstances.Keys
    ensures allocations <= r.state.allocations
  {
    Resolve(services, State(singletonInstances, {}, allocations), serviceKey)
  }
}

=== FILE: merge_dictionaries.dfy ===
/** `mergeDictionaries` of the utility folder: the right-biased union of two dictionaries. */
module MergeDictionaries {

  /** `{...current, ...added}`: a new dictionary; neither argument is changed. */
  function Merge<V>(current: map<string, V>, added: map<string, V>): (merged: map<string, V>)
    ensures merged.Keys == current.Keys + added.Keys
    ensures forall k | k in added :: merged[k] == added[k]
    ensures forall k | k in current && k !in added :: merged[k] == current[k]
  {
    current + added
  }

  /** Merging with an empty dictionary, on either side, gives the other one. */
  lemma MergeWithEmpty<V>(d: map<string, V>)
    ensures Merge(map[], d) == d && Merge(d, map[]) == d
  {
    assert Merge(map[], d) == d;
  }

  /** Merging twice in a row is one merge with the two additions merged first. */
  lemma MergeAssociative<V>(a: map<string, V>, b: map<string, V>, c: map<string, V>)
    ensures Merge(Merge(a, b), c) == Merge(a, Merge(b, c))
  {
  }

  /** Re-adding a key overwrites its earlier value. */
  lemma MergeOverwrites<V>(d: map<string, V>, k: string, v: V)
    ensures Merge(d, map[k := v])[k] == v
    ensures Merge(d, map[k := v]).Keys == d.Keys + {k}
  {
  }
}

=== FILE: missing_dependency_error.dfy ===
/**
 * The message of `MissingDependencyError`: the missing key and the chain of keys that led
 * to it, rendered root first and joined by `-->`.
 */
module MissingDependencyError {
  import opened Wrappers
  import opened DependencyGraphNode

  const Separator := "-->"

  /** `Array.prototype.join`: the parts with `sep` between neighbours. */
  function Join(parts: seq<string>, sep: string): string
  {
    if |parts| == 0 then ""
    else if |parts| == 1 then parts[0]
    else parts[0] + sep + Join(parts[1..], sep)
  }

  /** The elements of `s` in the opposite order. */
  function Reversed<T>(s: seq<T>): (r: seq<T>)
    ensures |r| == |s|
  {
    if s == [] then [] else [s[|s| - 1]] + Reversed(s[..|s| - 1])
  }

  /** The key names of the chain, root first and `n` last. */
  function Path(n: Node): seq<string>
  {
    Reversed(KeyNames(n))
  }

  /** The rendered chain, as `buildDependencyGraph` returns it. */
  function DependencyGraph(n: Node): string
  {
    Join(Path(n), Separator)
  }

  /** `buildDependencyGraph`: collect the names walking up the parents, reverse, join. */
  method BuildDependencyGraph(node: Node) returns (graph: string)
    ensures graph == DependencyGraph(node)
  {
    var serviceKeys := [node.keyName];
    var current := node;
    while current.parent.Some?
      invariant serviceKeys + (match current.parent case None => [] case Some(p) => KeyNames(p)) == KeyNames(node)
      decreases current
    {
      current := current.parent.value;
      serviceKeys := serviceKeys + [current.keyName];
    }
    assert serviceKeys == KeyNames(node);
    serviceKeys := Reversed(serviceKeys);
    graph := Join(serviceKeys, Separator);
  }

  /**
   * `getMessage`: the message the error is constructed with. It names the missing key
   * right after the fixed opening and ends with the rendered chain and a period.
   */
  function GetMessage(node: Node): (m: string)
    ensures |m| == 50 + |node.keyName| + |DependencyGraph(node)|
    ensures m[..17] == "Service with key "
    ensures m[17..17 + |node.keyName|] == node.keyName
    ensures m[|m| - 1 - |DependencyGraph(node)|..|m| - 1] == DependencyGraph(node)
    ensures m[|m| - 1] == '.'
  {
    var graph := DependencyGraph(node);
    var head := "Service with key " + node.keyName;
    var body := head + " not found. Dependency graph is " + graph;
    assert head[..17] == "Service with key " && head[17..] == node.keyName;
    assert body[..|head|] == head;
    assert body[|body| - |graph|..] == graph;
    assert (body + ".")[..|body|] == body;
    body + "."
  }

  lemma {:induction false} ReversedSnoc<T>(x: T, s: seq<T>)
    ensures Reversed([x] + s) == Reversed(s) + [x]
    decreases |s|
  {
    if s == [] {
      assert [x] + s == [x];
    } else {
      var t := [x] + s;
      assert t[|t| - 1] == s[|s| - 1];
      assert t[..|t| - 1] == [x] + s[..|s| - 1];
      ReversedSnoc(x, s[..|s| - 1]);
    }
  }

  /** Joining one more part adds the separator and the part at the end. */
  lemma {:induction false} JoinSnoc(parts: seq<string>, sep: string, last: string)
    requires |parts| > 0
    ensures Join(parts + [last], sep) == Join(parts, sep) + sep + last
    decreases |parts|
  {
    if |parts| == 1 {
      assert (parts + [last])[1..] == [last];
    } else {
      assert (parts + [last])[1..] == parts[1..] + [last];
      JoinSnoc(parts[1..], sep, last);
    }
  }

  /**
   * The path has one segment per node of the chain, starts at the root's key and ends at
   * the node's own key, and segment `i` is the key `i` links below the root.
   */
  lemma {:induction false} PathShape(n: Node)
    ensures |Path(n)| == Depth(n) + 1
    ensures Path(n)[0] == Root(n).keyName
    ensures Path(n)[Depth(n)] == n.keyName
    ensures forall i | 0 <= i <= Depth(n) :: Path(n)[i] == Lineage(n)[Depth(n) - i].keyName
    decreases n
  {
    match n.parent
    case None =>
    case Some(p) =>
      PathShape(p);
      PathOfChild(n, p);
  }

  /** A child's path is its parent's path with the child's key appended. */
  lemma PathOfChild(n: Node, p: Node)
    requires n.parent == Some(p)
    ensures Path(n) == Path(p) + [n.keyName]
  {
    ReversedSnoc(n.keyName, KeyNames(p));
  }

  /**
   * The rendering, characterised without reference to the loop: a root renders as its
   * own key, and a child renders as its parent's rendering followed by `-->` and its key.
   */
  lemma DependencyGraphOfChild(n: Node)
    ensures n.parent.None? ==> DependencyGraph(n) == n.keyName
    ensures n.parent.Some? ==> DependencyGraph(n) == DependencyGraph(n.parent.value) + Separator + n.keyName
  {
    match n.parent
    case None =>
    case Some(p) =>
      PathOfChild(n, p);
      PathShape(p);
      JoinSnoc(Path(p), Separator, n.keyName);
  }

  /** The chain `ApplyTaxes` → `TaxRate` of the container's missing-dependency test. */
  lemma ApplyTaxesExample()
    ensures DependencyGraph(Node("TaxRate", false, Some(Node("ApplyTaxes", false, None)))) == "ApplyTaxes-->TaxRate"
    ensures GetMessage(Node("TaxRate", false, Some(Node("ApplyTaxes", false, None))))
         == "Service with key " + "TaxRate" + " not found. Dependency graph is " + "ApplyTaxes-->TaxRate" + "."
  {
    var root := Node("ApplyTaxes", false, None);
    var leaf := Node("TaxRate", false, Some(root));
    DependencyGraphOfChild(leaf);
    DependencyGraphOfChild(root);
    assert DependencyGraph(leaf) == "ApplyTaxes-->TaxRate";
  }
}

=== FILE: placeholder.dfy ===
/**
 * `SingletonPlaceholder`: the forward reference handed out when a singleton is asked for
 * while it is still being built. Its proxy forwards every operation to `instance` once the
 * container has set it, and fails with `UninitializedPropertyAccess` before that. The
 * object behind `instance` is an ordinary object with own properties, an extensible flag
 * and a prototype; the proxy's own target is an empty object whose only relevant state is
 * its extensible flag.
 */
module Placeholder {
  import opened Wrappers
  import opened Values
  import opened Errors

  /** An ordinary object: own properties, extensible flag, prototype identity (`None` is null). */
  class Target {
    var props: map<string, Value>
    var extensible: bool
    var proto: Option<nat>

    constructor (props: map<string, Value>, proto: Option<nat>)
      ensures this.props == props && this.proto == proto && extensible
    {
      this.props := props;
      this.proto := proto;
      extensible := true;
    }
  }

  class SingletonPlaceholder {
    /** Unset (`null`) until the container has built the singleton. */
    var instance: Target?
    /** Extensible flag of the empty object the proxy wraps. */
    var targetExtensible: bool

    constructor ()
      ensures instance == null && targetExtensible
    {
      instance := null;
      targetExtensible := true;
    }

    /**
     * The proxy's own target never becomes non-extensible unless the instance is: the only
     * traps that change it first make the instance non-extensible or find it so.
     */
    predicate Consistent()
      reads this, instance
    {
      instance != null && !targetExtensible ==> !instance.extensible
    }

    /** `get` trap: the instance's own property, `Undefined` when absent. */
    method Get(prop: string) returns (r: Result<Value, Error>)
      ensures instance == null ==> r == Err(UninitializedPropertyAccess)
      ensures instance != null ==> r == Ok(if prop in instance.props then instance.props[prop] else Undefined)
    {
      if instance == null {
        return Err(UninitializedPropertyAccess);
      }
      r := Ok(if prop in instance.props then instance.props[prop] else Undefined);
    }

    /** `set` trap: writes the property on the instance unless it is new and the instance is not extensible. */
    method Set(prop: string, v: Value) returns (r: Result<bool, Error>)
      modifies instance
      ensures instance == null ==> r == Err(UninitializedPropertyAccess)
      ensures instance != null ==>
                var accepted := prop in old(instance.props) || old(instance.extensible);
                && r == Ok(accepted)
                && instance.props == (if accepted then old(instance.props)[prop := v] else old(instance.props))
                && instance.extensible == old(instance.extensible) && instance.proto == old(instance.proto)
    {
      if instance == null {
        return Err(UninitializedPropertyAccess);
      }
      if prop in instance.props || instance.extensible {
        instance.props := instance.props[prop := v];
        return Ok(true);
      }
      return Ok(false);
    }

    /** `getPrototypeOf` trap. */
    method GetPrototypeOf() returns (r: Result<Option<nat>, Error>)
      ensures instance == null ==> r == Err(UninitializedPropertyAccess)
      ensures instance != null ==> r == Ok(instance.proto)
    {
      if instance == null {
        return Err(UninitializedPropertyAccess);
      }
      r := Ok(instance.proto);
    }

    /** `setPrototypeOf` trap: a non-extensible instance only accepts its current prototype. */
    method SetPrototypeOf(proto: Option<nat>) returns (r: Result<bool, Error>)
      modifies instance
      ensures instance == null ==> r == Err(UninitializedPropertyAccess)
      ensures instance != null ==>
                var accepted := proto == old(instance.proto) || old(instance.extensible);
                && r == Ok(accepted)
                && instance.proto == (if accepted then proto else old(instance.proto))
                && instance.props == old(instance.props) && instance.extensible == old(instance.extensible)
    {
      if instance == null {
        return Err(UninitializedPropertyAccess);
      }
      if proto == instance.proto || instance.extensible {
        instance.proto := proto;
        return Ok(true);
      }
      return Ok(false);
    }

    /** `defineProperty` trap, with the descriptor reduced to its value. */
    method DefineProperty(prop: string, v: Value) returns (r: Result<bool, Error>)
      modifies instance
      ensures instance == null ==> r == Err(UninitializedPropertyAccess)
      ensures instance != null ==>
                var accepted := prop in old(instance.props) || old(instance.extensible);
                && r == Ok(accepted)
                && instance.props == (if accepted then old(instance.props)[prop := v] else old(instance.props))
                && instance.extensible == old(instance.extensible) && instance.proto == old(instance.proto)
    {
      if instance == null {
        return Err(UninitializedPropertyAccess);
      }
      if prop in instance.props || instance.extensible {
        instance.props := instance.props[prop := v];
        return Ok(true);
      }
      return Ok(false);
    }

    /** `deleteProperty` trap: removes the instance's own property. */
    method DeleteProperty(prop: string) returns (r: Result<bool, Error>)
      modifies instance
      ensures instance == null ==> r == Err(UninitializedPropertyAccess)
      ensures instance != null ==>
                && r == Ok(true)
                && instance.props == old(instance.props) - {prop}
                && instance.extensible == old(instance.extensible) && instance.proto == old(instance.proto)
    {
      if instance == null {
        return Err(UninitializedPropertyAccess);
      }
      instance.props := instance.props - {prop};
      return Ok(true);
    }

    /** `getOwnPropertyDescriptor` trap, the descriptor reduced to its value (`None` for undefined). */
    method GetOwnPropertyDescriptor(prop: string) returns (r: Result<Option<Value>, Error>)
      ensures instance == null ==> r == Err(UninitializedPropertyAccess)
      ensures instance != null ==> r == Ok(if prop in instance.props then Some(instance.props[prop]) else None)
    {
      if instance == null {
        return Err(UninitializedPropertyAccess);
      }
      r := Ok(if prop in instance.props then Some(instance.props[prop]) else None);
    }

    /** `has` trap, over own properties. */
    method Has(prop: string) returns (r: Result<bool, Error>)
      ensures instance == null ==> r == Err(UninitializedPropertyAccess)
      ensures instance != null ==> r == Ok(prop in instance.props)
    {
      if instance == null {
        return Err(UninitializedPropertyAccess);
      }
      r := Ok(prop in instance.props);
    }

    /** `ownKeys` trap, as a set of names. */
    method OwnKeys() returns (r: Result<set<string>, Error>)
      ensures instance == null ==> r == Err(UninitializedPropertyAccess)
      ensures instance != null ==> r == Ok(instance.props.Keys)
    {
      if instance == null {
        return Err(UninitializedPropertyAccess);
      }
      r := Ok(instance.props.Keys);
    }

    /**
     * `isExtensible` trap: a non-extensible instance makes the proxy's own target
     * non-extensible, and the answer is the target's flag.
     */
    method IsExtensible() returns (r: Result<bool, Error>)
      modifies this
      ensures instance == old(instance)
      ensures instance == null ==> r == Err(UninitializedPropertyAccess) && targetExtensible == old(targetExtensible)
      ensures instance != null ==>
                && targetExtensible == (old(targetExtensible) && instance.extensible)
                && r == Ok(targetExtensible)
      ensures Consistent() ==> r.Ok? ==> r == Ok(instance.extensible)
    {
      if instance == null {
        return Err(UninitializedPropertyAccess);
      }
      if !instance.extensible {
        targetExtensible := false;
      }
      return Ok(targetExtensible);
    }

    /** `preventExtensions` trap: makes both the instance and the proxy's own target non-extensible. */
    method PreventExtensions() returns (r: Result<bool, Error>)
      modifies this, instance
      ensures instance == old(instance)
      ensures instance == null ==> r == Err(UninitializedPropertyAccess) && targetExtensible == old(targetExtensible)
      ensures instance != null ==>
                && r == Ok(true)
                && !instance.extensible && !targetExtensible
                && instance.props == old(instance.props) && instance.proto == old(instance.proto)
      ensures old(Consistent()) ==> Consistent()
    {
      if instance == null {
        return Err(UninitializedPropertyAccess);
      }
      instance.extensible := false;
      targetExtensible := false;
      return Ok(true);
    }
  }
}

=== FILE: placeholder_scenarios.dfy ===
/**
 * What a placeholder's proxy does across several operations: it fails in every trap until
 * `instance` is set, and then reads observe the writes made through it.
 */
module PlaceholderScenarios {
  import opened Wrappers
  import opened Values
  import opened Errors
  import opened Placeholder

  /** While `instance` is unset, all eleven traps fail and nothing changes. */
  method UnsetProxyRejectsEveryTrap(p: SingletonPlaceholder, prop: string, v: Value, proto: Option<nat>)
    returns (results: seq<Result<bool, Error>>)
    requires p.instance == null
    modifies p
    ensures |results| == 11
    ensures forall i | 0 <= i < |results| :: results[i] == Err(UninitializedPropertyAccess)
    ensures p.instance == null && p.targetExtensible == old(p.targetExtensible)
  {
    var get := p.Get(prop);
    var written := p.Set(prop, v);
    var getProto := p.GetPrototypeOf();
    var setProto := p.SetPrototypeOf(proto);
    var define := p.DefineProperty(prop, v);
    var deleted := p.DeleteProperty(prop);
    var descriptor := p.GetOwnPropertyDescriptor(prop);
    var has := p.Has(prop);
    var keys := p.OwnKeys();
    var isExtensible := p.IsExtensible();
    var prevent := p.PreventExtensions();
    results := [
      if get.Err? then Err(get.error) else Ok(true), written, if getProto.Err? then Err(getProto.error) else Ok(true),
      setProto, define, deleted, if descriptor.Err? then Err(descriptor.error) else Ok(true), has,
      if keys.Err? then Err(keys.error) else Ok(true), isExtensible, prevent];
  }

  /** Once `instance` is set, a property written through the proxy is read back through it. */
  method SetThenGet(p: SingletonPlaceholder, prop: string, v: Value) returns (written: Result<bool, Error>, read: Result<Value, Error>)
    requires p.instance != null && (prop in p.instance.props || p.instance.extensible)
    modifies p.instance
    ensures written == Ok(true) && read == Ok(v)
    ensures p.instance.props == old(p.instance.props)[prop := v]
  {
    written := p.Set(prop, v);
    read := p.Get(prop);
  }

  /** Once `instance` is set, `defineProperty` on the proxy defines the property on the instance. */
  method DefineThenRead(p: SingletonPlaceholder, prop: string, v: Value) returns (defined: Result<bool, Error>)
    requires p.instance != null && p.instance.extensible
    modifies p.instance
    ensures defined == Ok(true)
    ensures prop in p.instance.props && p.instance.props[prop] == v
  {
    defined := p.DefineProperty(prop, v);
  }

  /** Once `instance` is set, a property deleted through the proxy is gone from the instance. */
  method DeleteThenQuery(p: SingletonPlaceholder, prop: string) returns (has: Result<bool, Error>, read: Result<Value, Error>)
    requires p.instance != null
    modifies p.instance
    ensures has == Ok(false) && read == Ok(Undefined)
    ensures p.instance.props.Keys == old(p.instance.props.Keys) - {prop}
  {
    var deleted := p.DeleteProperty(prop);
    has := p.Has(prop);
    read := p.Get(prop);
  }

  /** Once `instance` is set, `has`, `ownKeys` and `getOwnPropertyDescriptor` give the instance's own answers. */
  method QueriesMirrorInstance(p: SingletonPlaceholder, prop: string)
    returns (has: Result<bool, Error>, keys: Result<set<string>, Error>, descriptor: Result<Option<Value>, Error>)
    requires p.instance != null
    ensures has == Ok(prop in p.instance.props) && keys == Ok(p.instance.props.Keys)
    ensures descriptor.Ok? && (descriptor.value.Some? <==> prop in p.instance.props)
    ensures descriptor.Ok? && descriptor.value.Some? ==> descriptor.value.value == p.instance.props[prop]
  {
    has := p.Has(prop);
    keys := p.OwnKeys();
    descriptor := p.GetOwnPropertyDescriptor(prop);
  }

  /** Once `instance` is set, the prototype set through the proxy is the instance's and reads back. */
  method SetThenGetPrototype(p: SingletonPlaceholder, proto: Option<nat>) returns (read: Result<Option<nat>, Error>)
    requires p.instance != null && p.instance.extensible
    modifies p.instance
    ensures p.instance.proto == proto && read == Ok(proto)
  {
    var written := p.SetPrototypeOf(proto);
    read := p.GetPrototypeOf();
  }

  /**
   * Once `instance` is set, `preventExtensions` through the proxy makes the instance
   * non-extensible, and `isExtensible` on the proxy then answers false.
   */
  method PreventThenQueryExtensible(p: SingletonPlaceholder) returns (extensible: Result<bool, Error>)
    requires p.instance != null
    modifies p, p.instance
    ensures p.instance == old(p.instance) && !p.instance.extensible && extensible == Ok(false)
  {
    var prevented := p.PreventExtensions();
    extensible := p.IsExtensible();
  }

  /** An instance made non-extensible directly is reported non-extensible by the proxy. */
  method ExtensibleMirrorsInstance(p: SingletonPlaceholder) returns (extensible: Result<bool, Error>)
    requires p.instance != null && p.Consistent()
    modifies p
    ensures p.instance == old(p.instance) && extensible == Ok(p.instance.extensible)
  {
    extensible := p.IsExtensible();
  }
}

=== FILE: plain_object.dfy ===
/**
 * What the `in` operator sees on a plain object created by `{}` or by spreading: its own
 * properties and the ones it inherits from `Object.prototype`.
 */
module PlainObject {

  /** The property names every plain object inherits from `Object.prototype`. */
  const InheritedNames: set<string> := {
    "constructor", "hasOwnProperty", "isPrototypeOf", "propertyIsEnumerable",
    "toLocaleString", "toString", "valueOf", "__proto__",
    "__defineGetter__", "__defineSetter__", "__lookupGetter__", "__lookupSetter__"
  }

  /** `name in obj` for a plain object whose own property names are `own`. */
  predicate HasProperty(own: set<string>, name: string)
  {
    name in own || name in InheritedNames
  }
}

=== FILE: resolution.dfy ===
/**
 * The resolution algorithm of the current `Container`, as pure functions over the
 * container's mutable state. A call returns a `Step`: the value or the error it ends
 * with, and the state the container is in afterwards (an error keeps every change made
 * before it was thrown). The class `Engine.Container` is proved to follow these.
 */
module Resolution {
  import opened Wrappers
  import opened Values
  import opened Keys
  import opened Errors
  import opened Templates
  import opened DependencyGraphNode

  /**
   * The fields of a `Container` that change: `singletons`, `singletonPlaceholders`
   * (the placeholders handed out per key, as indices into `slots`), `resolvedInjectables`,
   * the `instance` field of every placeholder ever created, and the number of objects
   * created so far (the identity the next one gets). `owners` is bookkeeping the source
   * does not keep: the key each placeholder was handed out for, by creation order.
   */
  datatype State = State(
    singletons: map<string, Value>,
    placeholders: map<string, seq<nat>>,
    resolved: set<string>,
    slots: seq<Option<Value>>,
    owners: seq<string>,
    allocations: nat)

  /** A freshly built container. */
  const Initial := State(map[], map[], {}, [], [], 0)

  datatype Step<T> = Step(outcome: Result<T, Error>, state: State)

  /**
   * One step of the cycle scan: `next` is the ancestor about to be visited and
   * `onlySingletons` says whether every node visited so far (the start node included)
   * was a singleton node.
   */
  function ScanFrom(keyName: string, onlySingletons: bool, next: Option<Node>): (r: Result<bool, Error>)
    ensures r.Err? ==> r.error == CircularDependency(keyName)
    ensures r == Ok(true) ==> onlySingletons
    decreases next
  {
    match next
    case None => Ok(false)
    case Some(n) =>
      var only := onlySingletons && n.isSingleton;
      if n.keyName == keyName then (if only then Ok(true) else Err(CircularDependency(keyName)))
      else ScanFrom(keyName, only, n.parent)
  }

  /**
   * `completesSingletonOnlyDependencyCycle`: `Ok(true)` when an ancestor carries the node's
   * key and the nodes from the node up to that ancestor are all singletons, an error when
   * such an ancestor exists but the span holds a transient node, `Ok(false)` otherwise.
   */
  function CycleScan(node: Node): (r: Result<bool, Error>)
    ensures r.Err? ==> r.error == CircularDependency(node.keyName)
    ensures node.parent.None? ==> r == Ok(false)
  {
    ScanFrom(node.keyName, node.isSingleton, node.parent)
  }

  /** Sets the `instance` of placeholder `id`. */
  function Bind(slots: seq<Option<Value>>, id: nat, v: Value): (r: seq<Option<Value>>)
    ensures |r| == |slots|
  {
    if id < |slots| then slots[id := Some(v)] else slots
  }

  /** `placeholders.forEach(p => p.instance = instance)`. */
  function BindAll(slots: seq<Option<Value>>, ids: seq<nat>, v: Value): (r: seq<Option<Value>>)
    ensures |r| == |slots|
    ensures forall i | 0 <= i < |slots| :: r[i] == if i in ids then Some(v) else slots[i]
    decreases |ids|
  {
    if ids == [] then slots
    else
      assert forall i | 0 <= i < |slots| :: i in ids <==> i == ids[0] || i in ids[1..];
      BindAll(Bind(slots, ids[0], v), ids[1..], v)
  }

  /**
   * Hands out a new placeholder for `keyName`: a fresh slot with no instance, recorded
   * under the key (the list is created when the key has none yet).
   */
  function IssuePlaceholder(st: State, keyName: string): (r: Step<Value>)
    ensures r.outcome == Ok(Forward(|st.slots|))
    ensures r.state.slots == st.slots + [None] && r.state.owners == st.owners + [keyName]
    ensures r.state.placeholders.Keys == st.placeholders.Keys + {keyName}
    ensures keyName in st.placeholders ==> r.state.placeholders[keyName] == st.placeholders[keyName] + [|st.slots|]
    ensures keyName !in st.placeholders ==> r.state.placeholders[keyName] == [|st.slots|]
    ensures forall k | k in st.placeholders && k != keyName :: r.state.placeholders[k] == st.placeholders[k]
    ensures r.state.singletons == st.singletons && r.state.resolved == st.resolved
    ensures r.state.allocations == st.allocations
  {
    var id := |st.slots|;
    var pending := if keyName in st.placeholders then st.placeholders[keyName] else [];
    Step(Ok(Forward(id)), st.(slots := st.slots + [None], owners := st.owners + [keyName], placeholders := st.placeholders[keyName := pending + [id]]))
  }

  /**
   * What happens after a node's instance is created: a singleton node caches it and binds
   * and forgets every placeholder handed out for its key; every node flags its key resolved.
   */
  function Commit(st: State, node: Node, instance: Value): (r: State)
    ensures r.resolved == st.resolved + {node.keyName}
    ensures r.allocations == st.allocations && r.owners == st.owners && |r.slots| == |st.slots|
    ensures !node.isSingleton ==>
              r.singletons == st.singletons && r.placeholders == st.placeholders && r.slots == st.slots
    ensures node.isSingleton ==>
              && r.singletons == st.singletons[node.keyName := instance]
              && r.placeholders == st.placeholders - {node.keyName}
    ensures node.isSingleton && node.keyName !in st.placeholders ==> r.slots == st.slots
    ensures node.isSingleton && node.keyName in st.placeholders ==>
              forall i | 0 <= i < |st.slots| ::
                r.slots[i] == if i in st.placeholders[node.keyName] then Some(instance) else st.slots[i]
  {
    var k := node.keyName;
    var cached :=
      if !node.isSingleton then st
      else if k in st.placeholders then
        st.(singletons := st.singletons[k := instance],
            slots := BindAll(st.slots, st.placeholders[k], instance),
            placeholders := st.placeholders - {k})
      else st.(singletons := st.singletons[k := instance]);
    cached.(resolved := cached.resolved + {k})
  }

  /** The node for a dependency `dep` of `parent`. */
  function Child(injectables: Registry, dep: Key, parent: Node): Node
  {
    Node(dep.name, IsSingleton(injectables, dep.name), Some(parent))
  }

  /** The node `get(key)` starts from. */
  function RootNode(injectables: Registry, keyName: string): Node
  {
    Node(keyName, IsSingleton(injectables, keyName), None)
  }

  /** `v` is an object created by resolution after `from` objects and before `to`. */
  predicate Fresh(v: Value, from: nat, to: nat)
  {
    (v.Instance? || v.BoundFn?) && from <= v.serial < to
  }

  /** Puts `prefix` in front of the values of a successful step. */
  function Prefixed(prefix: seq<Value>, s: Step<seq<Value>>): (r: Step<seq<Value>>)
    ensures r.state == s.state && r.outcome.Err? == s.outcome.Err?
    ensures s.outcome.Ok? ==> r.outcome.value == prefix + s.outcome.value
    ensures prefix == [] ==> r == s
  {
    match s.outcome
    case Ok(vs) =>
      assert prefix == [] ==> prefix + vs == vs;
      Step(Ok(prefix + vs), s.state)
    case Err(_) => s
  }

  lemma PrefixedTwice(front: seq<Value>, back: seq<Value>, s: Step<seq<Value>>)
    ensures Prefixed(front, Prefixed(back, s)) == Prefixed(front + back, s)
  {
    if s.outcome.Ok? {
      assert front + (back + s.outcome.value) == (front + back) + s.outcome.value;
    }
  }

  /**
   * `resolveWithDependencyGraph(node)`. `fuel` bounds the depth of dependency resolution;
   * the source has no such bound, and `OutOfFuel` is never one of its errors.
   */
  function Resolve(injectables: Registry, st: State, node: Node, fuel: nat): (r: Step<Value>)
    ensures st.resolved <= r.state.resolved
    ensures st.singletons.Keys <= r.state.singletons.Keys
    ensures |st.slots| <= |r.state.slots|
    ensures st.allocations <= r.state.allocations
    decreases fuel, 1
  {
    var k := node.keyName;
    if k in st.singletons && Truthy(st.singletons[k]) then Step(Ok(st.singletons[k]), st)
    else if k !in injectables then
      (if node.parent.None? then Step(Err(MissingInjectable(k)), st) else Step(Err(MissingDependency(node)), st))
    else if injectables[k].Constant? then Step(Ok(injectables[k].value), st)
    else if k !in st.resolved then
      match CycleScan(node)
      case Err(e) => Step(Err(e), st)
      case Ok(closes) => if closes then IssuePlaceholder(st, k) else Build(injectables, st, node, fuel)
    else Build(injectables, st, node, fuel)
  }

  /** Resolves the dependencies of `node`, then creates and commits its instance. */
  function Build(injectables: Registry, st: State, node: Node, fuel: nat): (r: Step<Value>)
    requires node.keyName in injectables && !injectables[node.keyName].Constant?
    ensures st.resolved <= r.state.resolved
    ensures st.singletons.Keys <= r.state.singletons.Keys
    ensures |st.slots| <= |r.state.slots|
    ensures st.allocations <= r.state.allocations
    ensures r.outcome.Ok? ==> Fresh(r.outcome.value, st.allocations, r.state.allocations)
    ensures r.outcome.Ok? ==> node.keyName in r.state.resolved
    ensures r.outcome.Ok? && node.isSingleton ==>
              node.keyName in r.state.singletons && r.state.singletons[node.keyName] == r.outcome.value
    decreases fuel, 0
  {
    if fuel == 0 then Step(Err(OutOfFuel), st)
    else
      var t := injectables[node.keyName];
      var deps := ResolveAll(injectables, st, t.dependencies, node, fuel - 1);
      match deps.outcome
      case Err(e) => Step(Err(e), deps.state)
      case Ok(args) =>
        match Instantiate(t, args, deps.state.slots, deps.state.allocations)
        case Err(e) => Step(Err(e), deps.state)
        case Ok(instance) =>
          Step(Ok(instance), Commit(deps.state.(allocations := deps.state.allocations + 1), node, instance))
  }

  /** `dependencies.map(...)`: resolves the dependencies of `parent` in order, stopping at the first error. */
  function ResolveAll(injectables: Registry, st: State, deps: seq<Key>, parent: Node, fuel: nat): (r: Step<seq<Value>>)
    ensures st.resolved <= r.state.resolved
    ensures st.singletons.Keys <= r.state.singletons.Keys
    ensures |st.slots| <= |r.state.slots|
    ensures st.allocations <= r.state.allocations
    ensures r.outcome.Ok? ==> |r.outcome.value| == |deps|
    decreases fuel, 2, |deps|
  {
    if deps == [] then Step(Ok([]), st)
    else
      var first := Resolve(injectables, st, Child(injectables, deps[0], parent), fuel);
      match first.outcome
      case Err(e) => Step(Err(e), first.state)
      case Ok(v) => Prefixed([v], ResolveAll(injectables, first.state, deps[1..], parent, fuel))
  }

  /**
   * `get(key)`: a cached singleton is returned as it is; an unregistered key fails with
   * `MissingInjectable`, never `MissingDependency`, and changes nothing.
   */
  function Get(injectables: Registry, st: State, keyName: string, fuel: nat): (r: Step<Value>)
    ensures keyName in st.singletons && Truthy(st.singletons[keyName]) ==>
              r == Step(Ok(st.singletons[keyName]), st)
    ensures !(keyName in st.singletons && Truthy(st.singletons[keyName])) && keyName !in injectables ==>
              r == Step(Err(MissingInjectable(keyName)), st)
    ensures st.resolved <= r.state.resolved && st.allocations <= r.state.allocations
  {
    Resolve(injectables, st, RootNode(injectables, keyName), fuel)
  }
}

=== FILE: resolution_examples.dfy ===
/** The container's documented scenarios, worked through the resolution functions. */
module ResolutionExamples {
  import opened Wrappers
  import opened Values
  import opened Keys
  import opened Errors
  import opened Templates
  import opened DependencyGraphNode
  import opened Resolution

  /** `ArrayEquals` and `ObjectEquals`: two singletons that need each other. */
  function MutualSingletons(): Registry
  {
    map[
      "ArrayEquals" := InjectedClass(Factory(0, {}), [Key("ObjectEquals")], true),
      "ObjectEquals" := InjectedClass(Factory(1, {}), [Key("ArrayEquals")], true)]
  }

  /**
   * The inner half of the singleton cycle: `ArrayEquals`, asked for by `ObjectEquals`,
   * receives a placeholder for `ObjectEquals` and is cached.
   */
  lemma MutualSingletonsInner()
    ensures var s1 := Initial.(slots := [None], owners := ["ObjectEquals"], placeholders := map["ObjectEquals" := [0]]);
            var aeValue := Instance(0, [Forward(0)], 0);
            Resolve(MutualSingletons(), Initial, Node("ArrayEquals", true, Some(Node("ObjectEquals", true, None))), 2)
            == Step(Ok(aeValue), s1.(allocations := 1, singletons := map["ArrayEquals" := aeValue], resolved := {"ArrayEquals"}))
  {
    var reg := MutualSingletons();
    var root := Node("ObjectEquals", true, None);
    var ae := Node("ArrayEquals", true, Some(root));
    var oe := Node("ObjectEquals", true, Some(ae));
    assert Child(reg, Key("ObjectEquals"), ae) == oe;
    assert CycleScan(oe) == Ok(true);
    var s1 := Initial.(slots := [None], owners := ["ObjectEquals"], placeholders := map["ObjectEquals" := [0]]);
    var noSlots: seq<Option<Value>> := [];
    var noIds: seq<nat> := [];
    var noOwners: seq<string> := [];
    assert noSlots + [None] == [None] && noIds + [0] == [0] && noOwners + ["ObjectEquals"] == ["ObjectEquals"];
    assert IssuePlaceholder(Initial, "ObjectEquals") == Step(Ok(Forward(0)), s1);
    assert Resolve(reg, Initial, oe, 1) == Step(Ok(Forward(0)), s1);
    assert ResolveAll(reg, s1, [], ae, 1) == Step(Ok([]), s1);
    assert [Forward(0)] + [] == [Forward(0)];
    assert ResolveAll(reg, Initial, [Key("ObjectEquals")], ae, 1) == Step(Ok([Forward(0)]), s1);
    var aeValue := Instance(0, [Forward(0)], 0);
    var s2 := s1.(allocations := 1, singletons := map["ArrayEquals" := aeValue], resolved := {"ArrayEquals"});
    assert Build(reg, Initial, ae, 2) == Step(Ok(aeValue), s2);
    assert CycleScan(ae) == Ok(false);
  }

  /**
   * A cycle of singletons resolves: the `ArrayEquals` built for `ObjectEquals` holds a
   * placeholder, and the placeholder's instance is that same `ObjectEquals`.
   */
  lemma MutualSingletonsResolve()
    ensures var r := Get(MutualSingletons(), Initial, "ObjectEquals", 3);
            && r.outcome.Ok? && r.outcome.value.Instance? && |r.outcome.value.args| == 1
            && r.outcome.value.args[0].Instance? && r.outcome.value.args[0].args == [Forward(0)]
            && r.state.slots == [Some(r.outcome.value)]
            && r.state.placeholders == map[]
  {
    var reg := MutualSingletons();
    var root := Node("ObjectEquals", true, None);
    var ae := Node("ArrayEquals", true, Some(root));
    assert RootNode(reg, "ObjectEquals") == root;
    assert Child(reg, Key("ArrayEquals"), root) == ae;
    var s1 := Initial.(slots := [None], owners := ["ObjectEquals"], placeholders := map["ObjectEquals" := [0]]);
    var aeValue := Instance(0, [Forward(0)], 0);
    var s2 := s1.(allocations := 1, singletons := map["ArrayEquals" := aeValue], resolved := {"ArrayEquals"});
    MutualSingletonsInner();
    assert Resolve(reg, Initial, ae, 2) == Step(Ok(aeValue), s2);
    assert ResolveAll(reg, s2, [], root, 2) == Step(Ok([]), s2);
    assert [aeValue] + [] == [aeValue];
    assert ResolveAll(reg, Initial, [Key("ArrayEquals")], root, 2) == Step(Ok([aeValue]), s2);
    var oeValue := Instance(1, [aeValue], 1);
    assert BindAll([None], [0], oeValue) == [Some(oeValue)];
    assert Build(reg, Initial, root, 3).outcome == Ok(oeValue);
    assert Build(reg, Initial, root, 3).state.slots == [Some(oeValue)];
    assert Build(reg, Initial, root, 3).state.placeholders == map[];
  }

  /** `A` and `B`: two transient classes that need each other. */
  function MutualTransients(): Registry
  {
    map[
      "A" := InjectedClass(Factory(0, {}), [Key("B")], false),
      "B" := InjectedClass(Factory(1, {}), [Key("A")], false)]
  }

  /** A cycle through transient classes fails with a circular dependency on the key asked for. */
  lemma MutualTransientsFail(fuel: nat)
    requires fuel >= 2
    ensures Get(MutualTransients(), Initial, "A", fuel).outcome == Err(CircularDependency("A"))
  {
    var reg := MutualTransients();
    var root := Node("A", false, None);
    var b := Node("B", false, Some(root));
    var a := Node("A", false, Some(b));
    assert RootNode(reg, "A") == root;
    assert Child(reg, Key("B"), root) == b;
    assert Child(reg, Key("A"), b) == a;
    assert CycleScan(a) == Err(CircularDependency("A"));
    assert Resolve(reg, Initial, a, fuel - 2).outcome == Err(CircularDependency("A"));
    assert ResolveAll(reg, Initial, [Key("A")], b, fuel - 2).outcome == Err(CircularDependency("A"));
    assert CycleScan(b) == Ok(false);
    assert Resolve(reg, Initial, b, fuel - 1).outcome == Err(CircularDependency("A"));
    assert ResolveAll(reg, Initial, [Key("B")], root, fuel - 1).outcome == Err(CircularDependency("A"));
    assert CycleScan(root) == Ok(false);
    assert Build(reg, Initial, root, fuel).outcome == Err(CircularDependency("A"));
  }

  /** `ItemWithName` and `ItemWithCount`: singletons whose constructors read a property of their argument. */
  function ReadingSingletons(): Registry
  {
    map[
      "ItemWithName" := InjectedClass(Factory(0, {0}), [Key("ItemWithCount")], true),
      "ItemWithCount" := InjectedClass(Factory(1, {0}), [Key("ItemWithName")], true)]
  }

  /**
   * A singleton in a cycle whose constructor reads from the placeholder it was given,
   * before the cycle is complete, fails with `UninitializedPropertyAccess`.
   */
  lemma ReadingSingletonsFail(fuel: nat)
    requires fuel >= 2
    ensures Get(ReadingSingletons(), Initial, "ItemWithName", fuel).outcome == Err(UninitializedPropertyAccess)
  {
    var reg := ReadingSingletons();
    var root := Node("ItemWithName", true, None);
    var count := Node("ItemWithCount", true, Some(root));
    var name := Node("ItemWithName", true, Some(count));
    assert RootNode(reg, "ItemWithName") == root;
    assert Child(reg, Key("ItemWithCount"), root) == count;
    assert Child(reg, Key("ItemWithName"), count) == name;
    assert CycleScan(name) == Ok(true);
    var noSlots: seq<Option<Value>> := [];
    var noIds: seq<nat> := [];
    var noOwners: seq<string> := [];
    assert noSlots + [None] == [None] && noIds + [0] == [0] && noOwners + ["ItemWithName"] == ["ItemWithName"];
    var s1 := Initial.(slots := [None], owners := ["ItemWithName"], placeholders := map["ItemWithName" := [0]]);
    assert Resolve(reg, Initial, name, fuel - 2) == Step(Ok(Forward(0)), s1);
    assert ResolveAll(reg, s1, [], count, fuel - 2) == Step(Ok([]), s1);
    assert [Forward(0)] + [] == [Forward(0)];
    assert ResolveAll(reg, Initial, [Key("ItemWithName")], count, fuel - 2) == Step(Ok([Forward(0)]), s1);
    assert UnboundForward([Forward(0)], 0, [None]);
    assert CycleScan(count) == Ok(false);
    assert Resolve(reg, Initial, count, fuel - 1).outcome == Err(UninitializedPropertyAccess);
    assert ResolveAll(reg, Initial, [Key("ItemWithCount")], root, fuel - 1).outcome == Err(UninitializedPropertyAccess);
    assert CycleScan(root) == Ok(false);
    assert Build(reg, Initial, root, fuel).outcome == Err(UninitializedPropertyAccess);
  }

  /** `ApplyTaxes`: a function bound to a key that was never registered. */
  function UnregisteredDependency(): Registry
  {
    map["ApplyTaxes" := BoundFunction(Factory(0, {}), [Key("TaxRate")])]
  }

  /** The missing dependency is reported with the chain that led to it. */
  lemma UnregisteredDependencyFails(fuel: nat)
    requires fuel >= 1
    ensures Get(UnregisteredDependency(), Initial, "ApplyTaxes", fuel).outcome
            == Err(MissingDependency(Node("TaxRate", false, Some(Node("ApplyTaxes", false, None)))))
  {
    var reg := UnregisteredDependency();
    var root := Node("ApplyTaxes", false, None);
    var taxRate := Node("TaxRate", false, Some(root));
    assert RootNode(reg, "ApplyTaxes") == root;
    assert Child(reg, Key("TaxRate"), root) == taxRate;
    assert Resolve(reg, Initial, taxRate, fuel - 1).outcome == Err(MissingDependency(taxRate));
    assert ResolveAll(reg, Initial, [Key("TaxRate")], root, fuel - 1).outcome == Err(MissingDependency(taxRate));
    assert CycleScan(root) == Ok(false);
    assert Build(reg, Initial, root, fuel).outcome == Err(MissingDependency(taxRate));
  }

  /** A diamond of transient classes: `A` needs `B` and `C`, and both need `D`. */
  function Diamond(): Registry
  {
    map[
      "A" := InjectedClass(Factory(0, {}), [Key("B"), Key("C")], false),
      "B" := InjectedClass(Factory(1, {}), [Key("D")], false),
      "C" := InjectedClass(Factory(2, {}), [Key("D")], false),
      "D" := InjectedClass(Factory(3, {}), [], false)]
  }

  /** The `B` branch of the diamond: `B` is built over a first `D`. */
  lemma DiamondLeftBranch()
    ensures Resolve(Diamond(), Initial, Node("B", false, Some(Node("A", false, None))), 2)
            == Step(Ok(Instance(1, [Instance(3, [], 0)], 1)), Initial.(allocations := 2, resolved := {"D", "B"}))
  {
    var reg := Diamond();
    var b := Node("B", false, Some(Node("A", false, None)));
    var db := Node("D", false, Some(b));
    assert Child(reg, Key("D"), b) == db;
    assert CycleScan(b) == Ok(false) && CycleScan(db) == Ok(false);
    var d0 := Instance(3, [], 0);
    var s1 := Initial.(allocations := 1, resolved := {"D"});
    assert Resolve(reg, Initial, db, 0) == Step(Err(OutOfFuel), Initial);
    assert Build(reg, Initial, db, 1) == Step(Ok(d0), s1);
    assert Resolve(reg, Initial, db, 1) == Step(Ok(d0), s1);
    assert ResolveAll(reg, s1, [], b, 1) == Step(Ok([]), s1);
    assert [d0] + [] == [d0];
    assert ResolveAll(reg, Initial, [Key("D")], b, 1) == Step(Ok([d0]), s1);
  }

  /** The `C` branch of the diamond: `D` is already flagged resolved and is built a second time. */
  lemma DiamondRightBranch()
    ensures Resolve(Diamond(), Initial.(allocations := 2, resolved := {"D", "B"}), Node("C", false, Some(Node("A", false, None))), 2)
            == Step(Ok(Instance(2, [Instance(3, [], 2)], 3)), Initial.(allocations := 4, resolved := {"D", "B", "C"}))
  {
    var reg := Diamond();
    var c := Node("C", false, Some(Node("A", false, None)));
    var dc := Node("D", false, Some(c));
    assert Child(reg, Key("D"), c) == dc;
    assert CycleScan(c) == Ok(false);
    var s2 := Initial.(allocations := 2, resolved := {"D", "B"});
    var d2 := Instance(3, [], 2);
    var s3 := Initial.(allocations := 3, resolved := {"D", "B"});
    assert Resolve(reg, s2, dc, 0) == Step(Err(OutOfFuel), s2);
    assert Resolve(reg, s2, dc, 1) == Step(Ok(d2), s3);
    assert ResolveAll(reg, s3, [], c, 1) == Step(Ok([]), s3);
    assert [d2] + [] == [d2];
    assert ResolveAll(reg, s2, [Key("D")], c, 1) == Step(Ok([d2]), s3);
  }

  /** The dependency list of the diamond's root: `B` and then `C`, each over its own `D`. */
  lemma DiamondDependencies()
    ensures ResolveAll(Diamond(), Initial, [Key("B"), Key("C")], Node("A", false, None), 2)
            == Step(Ok([Instance(1, [Instance(3, [], 0)], 1), Instance(2, [Instance(3, [], 2)], 3)]),
                    Initial.(allocations := 4, resolved := {"D", "B", "C"}))
  {
    var reg := Diamond();
    var root := Node("A", false, None);
    var b := Node("B", false, Some(root));
    var c := Node("C", false, Some(root));
    assert Child(reg, Key("B"), root) == b && Child(reg, Key("C"), root) == c;
    var bv := Instance(1, [Instance(3, [], 0)], 1);
    var s2 := Initial.(allocations := 2, resolved := {"D", "B"});
    DiamondLeftBranch();
    assert Resolve(reg, Initial, b, 2) == Step(Ok(bv), s2);
    var cv := Instance(2, [Instance(3, [], 2)], 3);
    var s4 := Initial.(allocations := 4, resolved := {"D", "B", "C"});
    DiamondRightBranch();
    assert Resolve(reg, s2, c, 2) == Step(Ok(cv), s4);
    assert ResolveAll(reg, s4, [], root, 2) == Step(Ok([]), s4);
    assert [cv] + [] == [cv];
    assert [Key("B"), Key("C")][1..] == [Key("C")];
    assert ResolveAll(reg, s2, [Key("C")], root, 2) == Step(Ok([cv]), s4);
    assert [bv] + [cv] == [bv, cv];
  }

  /** The parent-chain scan accepts the diamond and builds `D` once for each path to it. */
  lemma DiamondResolves()
    ensures var r := Get(Diamond(), Initial, "A", 3);
            && r.outcome.Ok?
            && r.outcome.value == Instance(0, [Instance(1, [Instance(3, [], 0)], 1), Instance(2, [Instance(3, [], 2)], 3)], 4)
  {
    var root := Node("A", false, None);
    assert RootNode(Diamond(), "A") == root;
    assert CycleScan(root) == Ok(false);
    DiamondDependencies();
  }
}

=== FILE: resolution_properties.dfy ===
/** Properties of the current resolution algorithm. */
module ResolutionProperties {
  import opened Wrappers
  import opened Values
  import opened Keys
  import opened Errors
  import opened Templates
  import opened DependencyGraphNode
  import opened Resolution

  // ---------------------------------------------------------------------------
  // The cycle scan against the lineage of the node

  /** No node of `l` before index `j` carries `keyName`. */
  predicate Avoids(l: seq<Node>, keyName: string, j: nat)
  {
    forall i | 0 <= i < j && i < |l| :: l[i].keyName != keyName
  }

  /** Every node of `l` up to and including index `j` is a singleton node. */
  predicate SingletonsUpTo(l: seq<Node>, j: nat)
  {
    forall i | 0 <= i <= j && i < |l| :: l[i].isSingleton
  }

  /** The strict ancestors of `node`, nearest first. */
  function Ancestors(node: Node): (a: seq<Node>)
    ensures |a| == Depth(node)
  {
    match node.parent
    case None => []
    case Some(p) => Lineage(p)
  }

  /** The lineage of a node with a parent is the node followed by the parent's lineage. */
  lemma LineageOfChild(m: Node, p: Node)
    requires m.parent == Some(p)
    ensures Lineage(m) == [m] + Lineage(p)
    ensures forall i | 0 <= i < |Lineage(p)| :: Lineage(m)[i + 1] == Lineage(p)[i]
  {
  }

  lemma {:induction false} ScanFromMiss(keyName: string, only: bool, m: Node)
    ensures ScanFrom(keyName, only, Some(m)) == Ok(false) <==> Avoids(Lineage(m), keyName, |Lineage(m)|)
    decreases m
  {
    var l := Lineage(m);
    match m.parent
    case None =>
      assert l == [m];
    case Some(p) =>
      LineageOfChild(m, p);
      ScanFromMiss(keyName, only && m.isSingleton, p);
      assert Avoids(l, keyName, |l|) <==> m.keyName != keyName && Avoids(Lineage(p), keyName, |Lineage(p)|);
  }

  lemma {:induction false} ScanFromHit(keyName: string, only: bool, m: Node, j: nat)
    requires j < |Lineage(m)| && Lineage(m)[j].keyName == keyName && Avoids(Lineage(m), keyName, j)
    ensures ScanFrom(keyName, only, Some(m))
            == if only && SingletonsUpTo(Lineage(m), j) then Ok(true) else Err(CircularDependency(keyName))
    decreases m
  {
    match m.parent
    case None =>
      assert Lineage(m) == [m];
    case Some(p) =>
      LineageOfChild(m, p);
      if j > 0 {
        assert Avoids(Lineage(p), keyName, j - 1);
        ScanFromHit(keyName, only && m.isSingleton, p, j - 1);
        assert SingletonsUpTo(Lineage(m), j) <==> m.isSingleton && SingletonsUpTo(Lineage(p), j - 1);
      }
  }

  /**
   * The cycle scan finds the nearest strict ancestor carrying the node's key: with none it
   * answers false; with one it answers true exactly when the node and every ancestor up to
   * and including that one are singleton nodes, and throws `CircularDependency` otherwise.
   */
  lemma CycleScanReference(node: Node)
    ensures CycleScan(node) == Ok(false) <==> Avoids(Ancestors(node), node.keyName, Depth(node))
    ensures forall j | 0 <= j < Depth(node) && Ancestors(node)[j].keyName == node.keyName
                       && Avoids(Ancestors(node), node.keyName, j) ::
              CycleScan(node)
              == if node.isSingleton && SingletonsUpTo(Ancestors(node), j)
                 then Ok(true) else Err(CircularDependency(node.keyName))
  {
    match node.parent
    case None =>
    case Some(p) =>
      ScanFromMiss(node.keyName, node.isSingleton, p);
      forall j | 0 <= j < Depth(node) && Ancestors(node)[j].keyName == node.keyName
                 && Avoids(Ancestors(node), node.keyName, j)
        ensures CycleScan(node)
                == if node.isSingleton && SingletonsUpTo(Ancestors(node), j)
                   then Ok(true) else Err(CircularDependency(node.keyName))
      {
        ScanFromHit(node.keyName, node.isSingleton, p, j);
      }
  }

  // ---------------------------------------------------------------------------
  // The container's state invariant

  /** A node whose singleton flag is the one `isSingleton` gives its key. */
  predicate Flagged(injectables: Registry, node: Node)
  {
    node.isSingleton == IsSingleton(injectables, node.keyName)
  }

  /** The placeholders handed out and not yet bound. */
  ghost function Pending(st: State): set<nat>
  {
    set k, id | k in st.placeholders && id in st.placeholders[k] :: id
  }

  /**
   * What holds of a container's state between calls: only singleton keys are cached,
   * each as a created object and after being flagged resolved; placeholders are pending
   * only for singleton keys not yet resolved; and a placeholder without an instance is
   * one still pending.
   */
  ghost predicate Valid(injectables: Registry, st: State)
  {
    && (forall k | k in st.singletons ::
          IsSingleton(injectables, k) && st.singletons[k].Instance? && k in st.resolved)
    && (forall k | k in st.placeholders :: IsSingleton(injectables, k) && k !in st.resolved)
    && (forall id | id in Pending(st) :: id < |st.slots|)
    && (forall id | 0 <= id < |st.slots| && st.slots[id].None? :: id in Pending(st))
  }

  lemma InitialValid(injectables: Registry)
    ensures Valid(injectables, Initial)
  {
  }

  lemma IssuePreservesValid(injectables: Registry, st: State, node: Node)
    requires Valid(injectables, st) && Flagged(injectables, node)
    requires node.keyName !in st.resolved && CycleScan(node) == Ok(true)
    ensures Valid(injectables, IssuePlaceholder(st, node.keyName).state)
  {
    var k := node.keyName;
    var st1 := IssuePlaceholder(st, k).state;
    var id := |st.slots|;
    assert id in st1.placeholders[k];
    forall i | i in Pending(st1) ensures i < |st1.slots| {
      var k' :| k' in st1.placeholders && i in st1.placeholders[k'];
      if k' != k || i != id {
        if k' == k && k in st.placeholders {
          assert i in st.placeholders[k];
        }
        assert i in Pending(st);
      }
    }
    forall i | 0 <= i < |st1.slots| && st1.slots[i].None? ensures i in Pending(st1) {
      if i < id {
        assert i in Pending(st);
        var k' :| k' in st.placeholders && i in st.placeholders[k'];
        assert i in st1.placeholders[k'];
      }
    }
  }

  lemma CommitPreservesValid(injectables: Registry, st: State, node: Node, instance: Value)
    requires Valid(injectables, st) && Flagged(injectables, node)
    requires node.isSingleton ==> instance.Instance?
    ensures Valid(injectables, Commit(st, node, instance))
  {
    var k := node.keyName;
    var st1 := Commit(st, node, instance);
    if node.isSingleton && k in st.placeholders {
      forall i | i in Pending(st1) ensures i < |st1.slots| {
        var k' :| k' in st1.placeholders && i in st1.placeholders[k'];
        assert k' in st.placeholders && i in st.placeholders[k'];
        assert i in Pending(st);
        assert |st1.slots| == |st.slots|;
      }
      forall i | 0 <= i < |st1.slots| && st1.slots[i].None? ensures i in Pending(st1) {
        assert i !in st.placeholders[k];
        assert i in Pending(st);
        var k' :| k' in st.placeholders && i in st.placeholders[k'];
        assert i in st1.placeholders[k'];
      }
    } else {
      assert Pending(st1) == Pending(st);
    }
  }

  lemma {:induction false} ResolvePreservesValid(injectables: Registry, st: State, node: Node, fuel: nat)
    requires Valid(injectables, st) && Flagged(injectables, node)
    ensures Valid(injectables, Resolve(injectables, st, node, fuel).state)
    decreases fuel, 1
  {
    var k := node.keyName;
    if k in st.singletons && Truthy(st.singletons[k]) {
    } else if k !in injectables || injectables[k].Constant? {
    } else if k !in st.resolved && CycleScan(node).Ok? && CycleScan(node).value {
      IssuePreservesValid(injectables, st, node);
    } else {
      BuildPreservesValid(injectables, st, node, fuel);
    }
  }

  lemma {:induction false} BuildPreservesValid(injectables: Registry, st: State, node: Node, fuel: nat)
    requires node.keyName in injectables && !injectables[node.keyName].Constant?
    requires Valid(injectables, st) && Flagged(injectables, node)
    ensures Valid(injectables, Build(injectables, st, node, fuel).state)
    decreases fuel, 0
  {
    if fuel > 0 {
      var t := injectables[node.keyName];
      var deps := ResolveAll(injectables, st, t.dependencies, node, fuel - 1);
      ResolveAllPreservesValid(injectables, st, t.dependencies, node, fuel - 1);
      if deps.outcome.Ok? {
        var made := Instantiate(t, deps.outcome.value, deps.state.slots, deps.state.allocations);
        if made.Ok? {
          var built := deps.state.(allocations := deps.state.allocations + 1);
          assert Pending(built) == Pending(deps.state);
          assert Valid(injectables, built);
          CommitPreservesValid(injectables, built, node, made.value);
        }
      }
    }
  }

  lemma {:induction false} ResolveAllPreservesValid(injectables: Registry, st: State, deps: seq<Key>, parent: Node, fuel: nat)
    requires Valid(injectables, st)
    ensures Valid(injectables, ResolveAll(injectables, st, deps, parent, fuel).state)
    decreases fuel, 2, |deps|
  {
    if deps != [] {
      var first := Resolve(injectables, st, Child(injectables, deps[0], parent), fuel);
      ResolvePreservesValid(injectables, st, Child(injectables, deps[0], parent), fuel);
      if first.outcome.Ok? {
        ResolveAllPreservesValid(injectables, first.state, deps[1..], parent, fuel);
      }
    }
  }

  // ---------------------------------------------------------------------------
  // Placeholders are bound before a successful `get` returns

  /** The key names of the strict ancestors of `node`. */
  ghost function AncestorKeys(node: Node): set<string>
  {
    set a | a in Ancestors(node) :: a.keyName
  }

  lemma ChildAncestorKeys(injectables: Registry, dep: Key, node: Node)
    ensures AncestorKeys(Child(injectables, dep, node)) == AncestorKeys(node) + {node.keyName}
  {
    var l := Lineage(node);
    assert Ancestors(Child(injectables, dep, node)) == l;
    assert l == [node] + Ancestors(node);
  }

  lemma ScanHitIsAncestor(node: Node)
    requires CycleScan(node) == Ok(true)
    ensures node.keyName in AncestorKeys(node)
  {
    CycleScanReference(node);
    assert !Avoids(Ancestors(node), node.keyName, Depth(node));
    var i :| 0 <= i < Depth(node) && Ancestors(node)[i].keyName == node.keyName;
    assert Ancestors(node)[i] in Ancestors(node);
  }

  lemma {:induction false} ResolvePendingOnChain(injectables: Registry, st: State, node: Node, fuel: nat)
    requires Valid(injectables, st) && Flagged(injectables, node)
    ensures var r := Resolve(injectables, st, node, fuel);
            r.outcome.Ok? ==> r.state.placeholders.Keys <= st.placeholders.Keys + AncestorKeys(node)
    decreases fuel, 1
  {
    var k := node.keyName;
    if k in st.singletons && Truthy(st.singletons[k]) {
    } else if k !in injectables || injectables[k].Constant? {
    } else if k !in st.resolved && CycleScan(node).Ok? && CycleScan(node).value {
      ScanHitIsAncestor(node);
    } else {
      BuildPendingOnChain(injectables, st, node, fuel);
    }
  }

  lemma {:induction false} BuildPendingOnChain(injectables: Registry, st: State, node: Node, fuel: nat)
    requires node.keyName in injectables && !injectables[node.keyName].Constant?
    requires Valid(injectables, st) && Flagged(injectables, node)
    ensures var r := Build(injectables, st, node, fuel);
            r.outcome.Ok? ==> r.state.placeholders.Keys <= st.placeholders.Keys + AncestorKeys(node)
    decreases fuel, 0
  {
    if fuel > 0 {
      var t := injectables[node.keyName];
      var deps := ResolveAll(injectables, st, t.dependencies, node, fuel - 1);
      ResolveAllPendingOnChain(injectables, st, t.dependencies, node, fuel - 1);
      ResolveAllPreservesValid(injectables, st, t.dependencies, node, fuel - 1);
    }
  }

  lemma {:induction false} ResolveAllPendingOnChain(injectables: Registry, st: State, deps: seq<Key>, parent: Node, fuel: nat)
    requires Valid(injectables, st)
    ensures var r := ResolveAll(injectables, st, deps, parent, fuel);
            r.outcome.Ok? ==> r.state.placeholders.Keys <= st.placeholders.Keys + AncestorKeys(parent) + {parent.keyName}
    decreases fuel, 2, |deps|
  {
    if deps != [] {
      var child := Child(injectables, deps[0], parent);
      var first := Resolve(injectables, st, child, fuel);
      ResolvePendingOnChain(injectables, st, child, fuel);
      ChildAncestorKeys(injectables, deps[0], parent);
      if first.outcome.Ok? {
        ResolvePreservesValid(injectables, st, child, fuel);
        ResolveAllPendingOnChain(injectables, first.state, deps[1..], parent, fuel);
      }
    }
  }

  /**
   * A successful `get` on a container with no pending placeholder leaves none pending,
   * and every placeholder ever handed out then has its instance set.
   */
  lemma GetBindsEveryPlaceholder(injectables: Registry, st: State, keyName: string, fuel: nat)
    requires Valid(injectables, st) && st.placeholders == map[]
    ensures var r := Get(injectables, st, keyName, fuel);
            r.outcome.Ok? ==>
              r.state.placeholders == map[] && forall id | 0 <= id < |r.state.slots| :: r.state.slots[id].Some?
  {
    var root := RootNode(injectables, keyName);
    var r := Get(injectables, st, keyName, fuel);
    ResolvePendingOnChain(injectables, st, root, fuel);
    ResolvePreservesValid(injectables, st, root, fuel);
    assert AncestorKeys(root) == {};
    if r.outcome.Ok? {
      assert r.state.placeholders.Keys == {};
      assert Pending(r.state) == {};
    }
  }

  // ---------------------------------------------------------------------------
  // Every bound placeholder holds the singleton of its own key

  /**
   * Placeholders point at the right singleton: a pending placeholder is listed under the
   * key it was handed out for, a placeholder whose instance is set holds the cached
   * singleton of that key, and every singleton key resolved so far is cached.
   */
  ghost predicate Owned(injectables: Registry, st: State)
  {
    && |st.owners| == |st.slots|
    && (forall k, j | k in st.placeholders && 0 <= j < |st.placeholders[k]| ::
          st.placeholders[k][j] < |st.owners| && st.owners[st.placeholders[k][j]] == k)
    && (forall id | 0 <= id < |st.slots| && st.slots[id].Some? ::
          st.owners[id] in st.singletons && st.slots[id] == Some(st.singletons[st.owners[id]]))
    && (forall k | k in st.resolved && IsSingleton(injectables, k) :: k in st.singletons)
  }

  /** Every placeholder whose instance was set in `before` has the same instance in `after`. */
  predicate KeepsBound(before: seq<Option<Value>>, after: seq<Option<Value>>)
  {
    |before| <= |after| && forall id | 0 <= id < |before| && before[id].Some? :: after[id] == before[id]
  }

  lemma InitialOwned(injectables: Registry)
    ensures Owned(injectables, Initial)
  {
  }

  /** The owner of a pending placeholder is the key it is listed under. */
  lemma OwnerOfPending(injectables: Registry, st: State, k: string, id: nat)
    requires Owned(injectables, st) && k in st.placeholders && id in st.placeholders[k]
    ensures id < |st.owners| && st.owners[id] == k
  {
    var j :| 0 <= j < |st.placeholders[k]| && st.placeholders[k][j] == id;
  }

  /** A placeholder pending after one is handed out for `keyName` is owned by its key. */
  lemma IssuedPendingOwner(injectables: Registry, st: State, keyName: string, k: string, id: nat)
    requires Owned(injectables, st)
    requires var st1 := IssuePlaceholder(st, keyName).state;
             k in st1.placeholders && id in st1.placeholders[k]
    ensures var st1 := IssuePlaceholder(st, keyName).state;
            id < |st1.owners| && st1.owners[id] == k
  {
    var st1 := IssuePlaceholder(st, keyName).state;
    if k != keyName {
      assert k in st.placeholders && st1.placeholders[k] == st.placeholders[k];
      OwnerOfPending(injectables, st, k, id);
    } else if id != |st.slots| {
      assert keyName in st.placeholders;
      assert id in st.placeholders[keyName] + [|st.slots|];
      OwnerOfPending(injectables, st, k, id);
    }
  }

  lemma IssuePreservesOwned(injectables: Registry, st: State, keyName: string)
    requires Owned(injectables, st)
    ensures Owned(injectables, IssuePlaceholder(st, keyName).state)
  {
    var st1 := IssuePlaceholder(st, keyName).state;
    forall k, j | k in st1.placeholders && 0 <= j < |st1.placeholders[k]|
      ensures st1.placeholders[k][j] < |st1.owners| && st1.owners[st1.placeholders[k][j]] == k
    {
      IssuedPendingOwner(injectables, st, keyName, k, st1.placeholders[k][j]);
    }
    forall id | 0 <= id < |st1.slots| && st1.slots[id].Some?
      ensures st1.owners[id] in st1.singletons && st1.slots[id] == Some(st1.singletons[st1.owners[id]])
    {
      assert id < |st.slots| && st1.slots[id] == st.slots[id] && st1.owners[id] == st.owners[id];
    }
  }

  /** A singleton committed for the first time binds its placeholders to itself. */
  lemma CommitPreservesOwned(injectables: Registry, st: State, node: Node, instance: Value)
    requires Owned(injectables, st) && Flagged(injectables, node)
    requires node.isSingleton ==> node.keyName !in st.singletons
    ensures Owned(injectables, Commit(st, node, instance))
    ensures KeepsBound(st.slots, Commit(st, node, instance).slots)
  {
    var k := node.keyName;
    var st1 := Commit(st, node, instance);
    if node.isSingleton && k in st.placeholders {
      forall id | 0 <= id < |st1.slots| && st1.slots[id].Some?
        ensures st1.owners[id] in st1.singletons && st1.slots[id] == Some(st1.singletons[st1.owners[id]])
      {
        if id in st.placeholders[k] {
          assert st.owners[id] == k;
        } else {
          assert st.owners[id] != k;
        }
      }
      forall id | 0 <= id < |st.slots| && st.slots[id].Some? ensures st1.slots[id] == st.slots[id] {
        assert st.owners[id] != k;
      }
    }
  }

  /**
   * A key carried by an ancestor of `node` and not resolved yet is still not resolved
   * after `node` is: the cycle scan stops every path back to it.
   */
  lemma {:induction false} ResolveKeepsAncestorUnresolved(injectables: Registry, st: State, node: Node, fuel: nat, k: string)
    requires Valid(injectables, st) && Flagged(injectables, node)
    requires k in AncestorKeys(node) && k !in st.resolved
    ensures k !in Resolve(injectables, st, node, fuel).state.resolved
    decreases fuel, 1
  {
    if node.keyName == k {
      CycleScanReference(node);
      var a :| a in Ancestors(node) && a.keyName == k;
      var i :| 0 <= i < |Ancestors(node)| && Ancestors(node)[i] == a;
      assert !Avoids(Ancestors(node), k, Depth(node));
    } else if node.keyName in injectables && !injectables[node.keyName].Constant? {
      BuildKeepsAncestorUnresolved(injectables, st, node, fuel, k);
    }
  }

  lemma {:induction false} BuildKeepsAncestorUnresolved(injectables: Registry, st: State, node: Node, fuel: nat, k: string)
    requires node.keyName in injectables && !injectables[node.keyName].Constant?
    requires Valid(injectables, st) && Flagged(injectables, node)
    requires k in AncestorKeys(node) && k != node.keyName && k !in st.resolved
    ensures k !in Build(injectables, st, node, fuel).state.resolved
    decreases fuel, 0
  {
    if fuel > 0 {
      ResolveAllKeepsAncestorUnresolved(injectables, st, injectables[node.keyName].dependencies, node, fuel - 1, k);
    }
  }

  lemma {:induction false} ResolveAllKeepsAncestorUnresolved(injectables: Registry, st: State, deps: seq<Key>, parent: Node, fuel: nat, k: string)
    requires Valid(injectables, st)
    requires k in AncestorKeys(parent) + {parent.keyName} && k !in st.resolved
    ensures k !in ResolveAll(injectables, st, deps, parent, fuel).state.resolved
    decreases fuel, 2, |deps|
  {
    if deps != [] {
      var child := Child(injectables, deps[0], parent);
      var first := Resolve(injectables, st, child, fuel);
      ChildAncestorKeys(injectables, deps[0], parent);
      ResolveKeepsAncestorUnresolved(injectables, st, child, fuel, k);
      if first.outcome.Ok? {
        ResolvePreservesValid(injectables, st, child, fuel);
        ResolveAllKeepsAncestorUnresolved(injectables, first.state, deps[1..], parent, fuel, k);
      }
    }
  }

  lemma {:induction false} ResolvePreservesOwned(injectables: Registry, st: State, node: Node, fuel: nat)
    requires Valid(injectables, st) && Owned(injectables, st) && Flagged(injectables, node)
    ensures Owned(injectables, Resolve(injectables, st, node, fuel).state)
    ensures KeepsBound(st.slots, Resolve(injectables, st, node, fuel).state.slots)
    decreases fuel, 1
  {
    var k := node.keyName;
    if k in st.singletons && Truthy(st.singletons[k]) {
    } else if k !in injectables || injectables[k].Constant? {
    } else if k !in st.resolved && CycleScan(node).Ok? && CycleScan(node).value {
      IssuePreservesOwned(injectables, st, k);
    } else if k !in st.resolved && CycleScan(node).Err? {
    } else {
      BuildPreservesOwned(injectables, st, node, fuel);
    }
  }

  lemma {:induction false} BuildPreservesOwned(injectables: Registry, st: State, node: Node, fuel: nat)
    requires node.keyName in injectables && !injectables[node.keyName].Constant?
    requires Valid(injectables, st) && Owned(injectables, st) && Flagged(injectables, node)
    requires node.isSingleton ==> node.keyName !in st.resolved
    ensures Owned(injectables, Build(injectables, st, node, fuel).state)
    ensures KeepsBound(st.slots, Build(injectables, st, node, fuel).state.slots)
    decreases fuel, 0
  {
    if fuel > 0 {
      var t := injectables[node.keyName];
      var deps := ResolveAll(injectables, st, t.dependencies, node, fuel - 1);
      ResolveAllPreservesOwned(injectables, st, t.dependencies, node, fuel - 1);
      ResolveAllPreservesValid(injectables, st, t.dependencies, node, fuel - 1);
      if deps.outcome.Ok? {
        var made := Instantiate(t, deps.outcome.value, deps.state.slots, deps.state.allocations);
        if made.Ok? {
          if node.isSingleton {
            ResolveAllKeepsAncestorUnresolved(injectables, st, t.dependencies, node, fuel - 1, node.keyName);
          }
          var built := deps.state.(allocations := deps.state.allocations + 1);
          CommitPreservesOwned(injectables, built, node, made.value);
        }
      }
    }
  }

  lemma {:induction false} ResolveAllPreservesOwned(injectables: Registry, st: State, deps: seq<Key>, parent: Node, fuel: nat)
    requires Valid(injectables, st) && Owned(injectables, st)
    ensures Owned(injectables, ResolveAll(injectables, st, deps, parent, fuel).state)
    ensures KeepsBound(st.slots, ResolveAll(injectables, st, deps, parent, fuel).state.slots)
    decreases fuel, 2, |deps|
  {
    if deps != [] {
      var child := Child(injectables, deps[0], parent);
      var first := Resolve(injectables, st, child, fuel);
      ResolvePreservesOwned(injectables, st, child, fuel);
      if first.outcome.Ok? {
        ResolvePreservesValid(injectables, st, child, fuel);
        ResolveAllPreservesOwned(injectables, first.state, deps[1..], parent, fuel);
      }
    }
  }

  /**
   * After a successful `get` on a container with no pending placeholder, every placeholder
   * ever handed out holds the cached singleton of the key it was handed out for, however
   * long the singleton-only cycles that produced them were.
   */
  lemma GetBindsEachPlaceholderToItsSingleton(injectables: Registry, st: State, keyName: string, fuel: nat)
    requires Valid(injectables, st) && Owned(injectables, st) && st.placeholders == map[]
    ensures var r := Get(injectables, st, keyName, fuel);
            && Owned(injectables, r.state)
            && (r.outcome.Ok? ==>
                  forall id | 0 <= id < |r.state.slots| ::
                    && r.state.owners[id] in r.state.singletons
                    && r.state.slots[id] == Some(r.state.singletons[r.state.owners[id]]))
  {
    var root := RootNode(injectables, keyName);
    ResolvePreservesOwned(injectables, st, root, fuel);
    GetBindsEveryPlaceholder(injectables, st, keyName, fuel);
  }

  /**
   * When `get` of a singleton key succeeds, every placeholder handed out for that key
   * holds the very instance `get` returns.
   */
  lemma GetSingletonFillsItsPlaceholders(injectables: Registry, st: State, keyName: string, fuel: nat)
    requires Valid(injectables, st) && Owned(injectables, st) && IsSingleton(injectables, keyName)
    ensures var r := Get(injectables, st, keyName, fuel);
            r.outcome.Ok? ==>
              forall id | 0 <= id < |r.state.slots| && r.state.slots[id].Some? && id < |r.state.owners|
                          && r.state.owners[id] == keyName ::
                r.state.slots[id] == Some(r.outcome.value)
  {
    var root := RootNode(injectables, keyName);
    ResolvePreservesOwned(injectables, st, root, fuel);
    CycleScanReference(root);
  }

  // ---------------------------------------------------------------------------
  // Single steps of `resolveWithDependencyGraph`

  /** A truthy cached singleton is returned at once and nothing changes. */
  lemma CachedSingletonShortCircuits(injectables: Registry, st: State, node: Node, fuel: nat)
    requires node.keyName in st.singletons && Truthy(st.singletons[node.keyName])
    ensures Resolve(injectables, st, node, fuel) == Step(Ok(st.singletons[node.keyName]), st)
  {
  }

  /**
   * An unregistered key fails with `MissingInjectable` at the root and with
   * `MissingDependency` carrying the node below it, and nothing changes.
   */
  lemma MissingKeyFails(injectables: Registry, st: State, node: Node, fuel: nat)
    requires Valid(injectables, st) && node.keyName !in injectables
    ensures Resolve(injectables, st, node, fuel)
            == Step(Err(if node.parent.None? then MissingInjectable(node.keyName) else MissingDependency(node)), st)
  {
    assert node.keyName !in st.singletons;
  }

  /** A constant resolves to its value without a scan, a cache write or a resolved flag. */
  lemma ConstantResolvesToValue(injectables: Registry, st: State, node: Node, fuel: nat)
    requires Valid(injectables, st) && node.keyName in injectables && injectables[node.keyName].Constant?
    ensures Resolve(injectables, st, node, fuel) == Step(Ok(injectables[node.keyName].value), st)
  {
    assert node.keyName !in st.singletons;
  }

  /**
   * A key not resolved before that closes an all-singleton cycle gets a fresh placeholder,
   * appended to its pending list; no dependency is resolved and no object is created.
   */
  lemma CycleClosingSingletonGetsPlaceholder(injectables: Registry, st: State, node: Node, fuel: nat)
    requires Valid(injectables, st) && Flagged(injectables, node)
    requires node.keyName in injectables && node.keyName !in st.resolved && CycleScan(node) == Ok(true)
    ensures var r := Resolve(injectables, st, node, fuel);
            var k := node.keyName;
            && r.outcome == Ok(Forward(|st.slots|))
            && r.state.slots == st.slots + [None]
            && r.state.placeholders == st.placeholders[k := (if k in st.placeholders then st.placeholders[k] else []) + [|st.slots|]]
            && r.state.singletons == st.singletons && r.state.resolved == st.resolved
            && r.state.allocations == st.allocations
  {
    assert node.isSingleton;
    assert node.keyName !in st.singletons;
  }

  /** A key already resolved skips the cycle scan: it is built again unless cached. */
  lemma ResolvedKeySkipsScan(injectables: Registry, st: State, node: Node, fuel: nat)
    requires node.keyName in st.resolved && node.keyName in injectables && !injectables[node.keyName].Constant?
    requires !(node.keyName in st.singletons && Truthy(st.singletons[node.keyName]))
    ensures Resolve(injectables, st, node, fuel) == Build(injectables, st, node, fuel)
  {
  }

  /** Once a key is resolved, no resolution fails with a circular dependency on that key. */
  lemma {:induction false} ResolvedKeyNeverCircular(injectables: Registry, st: State, node: Node, fuel: nat, k: string)
    requires k in st.resolved
    ensures Resolve(injectables, st, node, fuel).outcome != Err(CircularDependency(k))
    decreases fuel, 1
  {
    if node.keyName in st.singletons && Truthy(st.singletons[node.keyName]) {
    } else if node.keyName !in injectables || injectables[node.keyName].Constant? {
    } else if node.keyName !in st.resolved && CycleScan(node).Ok? && CycleScan(node).value {
    } else if node.keyName !in st.resolved && CycleScan(node).Err? {
    } else {
      BuildResolvedKeyNeverCircular(injectables, st, node, fuel, k);
    }
  }

  lemma {:induction false} BuildResolvedKeyNeverCircular(injectables: Registry, st: State, node: Node, fuel: nat, k: string)
    requires node.keyName in injectables && !injectables[node.keyName].Constant?
    requires k in st.resolved
    ensures Build(injectables, st, node, fuel).outcome != Err(CircularDependency(k))
    decreases fuel, 0
  {
    if fuel > 0 {
      ResolveAllResolvedKeyNeverCircular(injectables, st, injectables[node.keyName].dependencies, node, fuel - 1, k);
    }
  }

  lemma {:induction false} ResolveAllResolvedKeyNeverCircular(injectables: Registry, st: State, deps: seq<Key>, parent: Node, fuel: nat, k: string)
    requires k in st.resolved
    ensures ResolveAll(injectables, st, deps, parent, fuel).outcome != Err(CircularDependency(k))
    decreases fuel, 2, |deps|
  {
    if deps != [] {
      var child := Child(injectables, deps[0], parent);
      var first := Resolve(injectables, st, child, fuel);
      ResolvedKeyNeverCircular(injectables, st, child, fuel, k);
      if first.outcome.Ok? {
        ResolveAllResolvedKeyNeverCircular(injectables, first.state, deps[1..], parent, fuel, k);
      }
    }
  }

  // ---------------------------------------------------------------------------
  // Cycles of any length

  /**
   * An unresolved node whose nearest same-key ancestor is reached through a transient node
   * (the node itself included) fails with `CircularDependency` on its own key, before
   * anything is resolved, created or handed out.
   */
  lemma TransientCycleFails(injectables: Registry, st: State, node: Node, fuel: nat, j: nat)
    requires !(node.keyName in st.singletons && Truthy(st.singletons[node.keyName]))
    requires node.keyName in injectables && !injectables[node.keyName].Constant? && node.keyName !in st.resolved
    requires j < Depth(node) && Ancestors(node)[j].keyName == node.keyName && Avoids(Ancestors(node), node.keyName, j)
    requires !node.isSingleton || !SingletonsUpTo(Ancestors(node), j)
    ensures Resolve(injectables, st, node, fuel) == Step(Err(CircularDependency(node.keyName)), st)
  {
    CycleScanReference(node);
  }

  /**
   * `scope` is closed under dependencies, and every template registered under a name in
   * it is a constant or a singleton class whose constructor reads no argument. Names
   * outside `scope` may carry any template: resolution never reaches them from inside.
   */
  predicate SingletonScope(injectables: Registry, scope: set<string>)
  {
    forall k | k in scope && k in injectables ::
      || injectables[k].Constant?
      || (&& injectables[k].InjectedClass? && injectables[k].isSingleton && injectables[k].ctor.touches == {}
          && forall d | d in injectables[k].dependencies :: d.name in scope)
  }

  /** Every node of the chain starting at `next` is a singleton node. */
  predicate SingletonChain(next: Option<Node>)
    decreases next
  {
    match next
    case None => true
    case Some(n) => n.isSingleton && SingletonChain(n.parent)
  }

  /** The errors a dependency cycle can cause. */
  predicate CycleError(e: Error)
  {
    e.CircularDependency? || e.UninitializedPropertyAccess?
  }

  /** A scan started by a singleton node over a chain of singleton nodes never throws. */
  lemma {:induction false} ScanOverSingletons(keyName: string, next: Option<Node>)
    requires SingletonChain(next)
    ensures ScanFrom(keyName, true, next).Ok?
    decreases next
  {
    match next
    case None =>
    case Some(n) =>
      if n.keyName != keyName {
        ScanOverSingletons(keyName, n.parent);
      }
  }

  /**
   * When every class reachable from the node through dependencies is a singleton that
   * reads no argument while it is constructed, no resolution fails because of a cycle,
   * whatever its length: every cycle is closed with a placeholder, and the only errors
   * left are missing keys and fuel.
   */
  lemma {:induction false} SingletonCyclesNeverFail(injectables: Registry, scope: set<string>, st: State, node: Node, fuel: nat)
    requires SingletonScope(injectables, scope) && node.keyName in scope
    requires Flagged(injectables, node) && SingletonChain(node.parent)
    ensures var r := Resolve(injectables, st, node, fuel);
            r.outcome.Err? ==> !CycleError(r.outcome.error)
    decreases fuel, 1
  {
    var k := node.keyName;
    if k in st.singletons && Truthy(st.singletons[k]) {
    } else if k !in injectables || injectables[k].Constant? {
    } else {
      if k !in st.resolved {
        ScanOverSingletons(k, node.parent);
      }
      BuildSingletonCyclesNeverFail(injectables, scope, st, node, fuel);
    }
  }

  lemma {:induction false} BuildSingletonCyclesNeverFail(injectables: Registry, scope: set<string>, st: State, node: Node, fuel: nat)
    requires node.keyName in injectables && !injectables[node.keyName].Constant?
    requires SingletonScope(injectables, scope) && node.keyName in scope
    requires Flagged(injectables, node) && SingletonChain(node.parent)
    ensures var r := Build(injectables, st, node, fuel);
            r.outcome.Err? ==> !CycleError(r.outcome.error)
    decreases fuel, 0
  {
    if fuel > 0 {
      assert SingletonChain(Some(node));
      ResolveAllSingletonCyclesNeverFail(injectables, scope, st, injectables[node.keyName].dependencies, node, fuel - 1);
    }
  }

  lemma {:induction false} ResolveAllSingletonCyclesNeverFail(injectables: Registry, scope: set<string>, st: State, deps: seq<Key>, parent: Node, fuel: nat)
    requires SingletonScope(injectables, scope) && (forall d | d in deps :: d.name in scope)
    requires SingletonChain(Some(parent))
    ensures var r := ResolveAll(injectables, st, deps, parent, fuel);
            r.outcome.Err? ==> !CycleError(r.outcome.error)
    decreases fuel, 2, |deps|
  {
    if deps != [] {
      var child := Child(injectables, deps[0], parent);
      var first := Resolve(injectables, st, child, fuel);
      SingletonCyclesNeverFail(injectables, scope, st, child, fuel);
      if first.outcome.Ok? {
        ResolveAllSingletonCyclesNeverFail(injectables, scope, first.state, deps[1..], parent, fuel);
      }
    }
  }

  /**
   * Dependencies are resolved left to right: resolving `a + b` is resolving `a`, then
   * resolving `b` from the state `a` left, stopping at the first error.
   */
  lemma {:induction false} ResolveAllInOrder(injectables: Registry, st: State, a: seq<Key>, b: seq<Key>, parent: Node, fuel: nat)
    ensures var ra := ResolveAll(injectables, st, a, parent, fuel);
            ResolveAll(injectables, st, a + b, parent, fuel)
            == if ra.outcome.Err? then ra else Prefixed(ra.outcome.value, ResolveAll(injectables, ra.state, b, parent, fuel))
    decreases |a|
  {
    if a == [] {
      assert a + b == b;
    } else {
      assert (a + b)[0] == a[0] && (a + b)[1..] == a[1..] + b;
      var first := Resolve(injectables, st, Child(injectables, a[0], parent), fuel);
      if first.outcome.Ok? {
        ResolveAllInOrder(injectables, first.state, a[1..], b, parent, fuel);
        var rest := ResolveAll(injectables, first.state, a[1..], parent, fuel);
        if rest.outcome.Ok? {
          PrefixedTwice([first.outcome.value], rest.outcome.value, ResolveAll(injectables, rest.state, b, parent, fuel));
        }
      }
    }
  }

  // ---------------------------------------------------------------------------
  // Singleton and transient scope across calls to `get`

  /** A singleton resolved once is returned again, unchanged, by every later `get`. */
  lemma SingletonGetIsStable(injectables: Registry, st: State, keyName: string, fuel: nat, fuel2: nat)
    requires IsSingleton(injectables, keyName)
    requires Get(injectables, st, keyName, fuel).outcome.Ok?
    ensures var first := Get(injectables, st, keyName, fuel);
            Get(injectables, first.state, keyName, fuel2) == first
  {
    var root := RootNode(injectables, keyName);
    assert CycleScan(root) == Ok(false);
  }

  /** Two successive `get`s of a transient class or function give two distinct objects. */
  lemma TransientGetsAreDistinct(injectables: Registry, st: State, keyName: string, fuel: nat, fuel2: nat)
    requires Valid(injectables, st)
    requires keyName in injectables && !injectables[keyName].Constant? && !IsSingleton(injectables, keyName)
    requires Get(injectables, st, keyName, fuel).outcome.Ok?
    requires Get(injectables, Get(injectables, st, keyName, fuel).state, keyName, fuel2).outcome.Ok?
    ensures Get(injectables, st, keyName, fuel).outcome.value
            != Get(injectables, Get(injectables, st, keyName, fuel).state, keyName, fuel2).outcome.value
  {
    var root := RootNode(injectables, keyName);
    var first := Get(injectables, st, keyName, fuel);
    ResolvePreservesValid(injectables, st, root, fuel);
    assert keyName !in st.singletons && keyName !in first.state.singletons;
    assert CycleScan(root) == Ok(false);
  }

  // ---------------------------------------------------------------------------
  // Fuel

  /** More fuel changes nothing about a resolution that did not run out of it. */
  lemma {:induction false} ResolveFuelMonotone(injectables: Registry, st: State, node: Node, fuel: nat)
    requires Resolve(injectables, st, node, fuel).outcome != Err(OutOfFuel)
    ensures Resolve(injectables, st, node, fuel + 1) == Resolve(injectables, st, node, fuel)
    decreases fuel, 1
  {
    var k := node.keyName;
    if k in st.singletons && Truthy(st.singletons[k]) {
    } else if k !in injectables || injectables[k].Constant? {
    } else if k !in st.resolved && !CycleScan(node).Ok? {
    } else if k !in st.resolved && CycleScan(node).value {
    } else {
      BuildFuelMonotone(injectables, st, node, fuel);
    }
  }

  lemma {:induction false} BuildFuelMonotone(injectables: Registry, st: State, node: Node, fuel: nat)
    requires node.keyName in injectables && !injectables[node.keyName].Constant?
    requires Build(injectables, st, node, fuel).outcome != Err(OutOfFuel)
    ensures Build(injectables, st, node, fuel + 1) == Build(injectables, st, node, fuel)
    decreases fuel, 0
  {
    var deps := injectables[node.keyName].dependencies;
    ResolveAllFuelMonotone(injectables, st, deps, node, fuel - 1);
  }

  lemma {:induction false} ResolveAllFuelMonotone(injectables: Registry, st: State, deps: seq<Key>, parent: Node, fuel: nat)
    requires ResolveAll(injectables, st, deps, parent, fuel).outcome != Err(OutOfFuel)
    ensures ResolveAll(injectables, st, deps, parent, fuel + 1) == ResolveAll(injectables, st, deps, parent, fuel)
    decreases fuel, 2, |deps|
  {
    if deps != [] {
      var child := Child(injectables, deps[0], parent);
      ResolveFuelMonotone(injectables, st, child, fuel);
      var first := Resolve(injectables, st, child, fuel);
      if first.outcome.Ok? {
        ResolveAllFuelMonotone(injectables, first.state, deps[1..], parent, fuel);
      }
    }
  }
}

=== FILE: templates.dfy ===
/**
 * The three kinds of registered template (`Constant`, `BoundFunction`, `InjectedClass`)
 * and what each one's `resolve` produces from the resolved dependencies.
 */
module Templates {
  import opened Wrappers
  import opened Values
  import opened Keys
  import opened Errors

  /**
   * What `inject(cls, deps)` and `bind(fn, deps)` return: the class or function with its
   * ordered dependency keys attached as `__dependencies__`.
   */
  datatype Injectable = Injectable(factory: Factory, dependencies: seq<Key>)

  datatype Template =
    | Constant(value: Value)
    | BoundFunction(fn: Factory, dependencies: seq<Key>)
    | InjectedClass(ctor: Factory, dependencies: seq<Key>, isSingleton: bool)

  type Registry = map<string, Template>

  /**
   * `Container.isSingleton`: whether nodes for `keyName` are flagged singleton. Only a
   * class registered with `registerSingleton` is; a function, a constant, a class
   * registered with `registerClass` and a name with no template are not.
   */
  predicate IsSingleton(injectables: Registry, keyName: string)
    ensures IsSingleton(injectables, keyName) ==> keyName in injectables && injectables[keyName].InjectedClass?
    ensures keyName !in injectables ==> !IsSingleton(injectables, keyName)
    ensures keyName in injectables && !injectables[keyName].InjectedClass? ==> !IsSingleton(injectables, keyName)
  {
    keyName in injectables && injectables[keyName].InjectedClass? && injectables[keyName].isSingleton
  }

  /** Whether argument `i` is a placeholder proxy whose `instance` is still unset. */
  predicate UnboundForward(args: seq<Value>, i: nat, slots: seq<Option<Value>>)
  {
    i < |args| && args[i].Forward? && (args[i].slot >= |slots| || slots[args[i].slot].None?)
  }

  /**
   * `resolve(resolvedDependencies)`. A constant returns its value; a bound function is the
   * function bound to the arguments (the function itself does not run); a class is
   * constructed, and its constructor fails with `UninitializedPropertyAccessError` when it
   * reads a property of an argument that is a placeholder whose `instance` is unset.
   * `serial` is the identity the new object gets.
   */
  function Instantiate(t: Template, args: seq<Value>, slots: seq<Option<Value>>, serial: nat): (r: Result<Value, Error>)
    ensures t.Constant? ==> r == Ok(t.value)
    ensures t.BoundFunction? ==> r == Ok(BoundFn(t.fn.id, args, serial))
    ensures t.InjectedClass? && r.Ok? ==> r.value == Instance(t.ctor.id, args, serial)
    ensures t.InjectedClass? ==>
              (r.Err? <==> exists i | i in t.ctor.touches :: UnboundForward(args, i, slots))
    ensures r.Err? ==> r.error == UninitializedPropertyAccess
  {
    match t
    case Constant(value) => Ok(value)
    case BoundFunction(fn, _) => Ok(BoundFn(fn.id, args, serial))
    case InjectedClass(ctor, _, _) =>
      if exists i | i in ctor.touches :: UnboundForward(args, i, slots) then Err(UninitializedPropertyAccess)
      else Ok(Instance(ctor.id, args, serial))
  }
}

=== FILE: values.dfy ===
/**
 * The JavaScript values the container hands around, seen from the container's side.
 *
 * Factories are uninterpreted: a class or a function is known only by an identity and by
 * the positions of the constructor arguments whose properties its body reads while it
 * runs. What a factory builds is the term recording who built it, from which arguments,
 * and as which object of the container's lifetime (`serial`), which is how the model
 * tells two objects made by two `new` expressions apart.
 */
module Values {

  /** A class constructor or a plain function registered with the container. */
  datatype Factory = Factory(id: nat, touches: set<nat>)

  datatype Value =
    | Undefined
      /** a value supplied by the caller (a constant); `truthy` is its JavaScript truthiness */
    | Opaque(id: nat, truthy: bool)
      /** the object made by `new C(...args)` */
    | Instance(ctor: nat, args: seq<Value>, serial: nat)
      /** the function made by `f.bind(f, ...args)` */
    | BoundFn(fn: nat, args: seq<Value>, serial: nat)
      /** the `proxy` of the placeholder whose `instance` field is slot `slot` */
    | Forward(slot: nat)

  /** JavaScript truthiness: objects, functions and proxies are truthy, `undefined` is not. */
  predicate Truthy(v: Value) {
    match v
    case Undefined => false
    case Opaque(_, truthy) => truthy
    case _ => true
  }
}

=== FILE: wrappers.dfy ===
/** Option and Result values used in place of `undefined` and of thrown errors. */
module Wrappers {

  datatype Option<+T> = None | Some(value: T)

  /** `Err` stands for an exception thrown by the source; `Ok` for a normal return. */
  datatype Result<+T, +E> = Ok(value: T) | Err(error: E)
}
